=== FILE: README.md ===
# HexBuilder worker logistics — a Dafny model

This project models the logistics engine of the HexBuilder hex-grid city
builder. The model covers:

- the **job board**: a bounded, insertion-ordered list of pickup-and-deliver jobs;
- the **worker manager**: per-request ranking of wood, stone and water, the
  worker's "sticky" preference, three quota checks, and per-resource counters;
- the **worker agent**: the five-state machine Idle → ToSource → Loading →
  ToDest → Unloading, with its abort and complete-or-invalidate paths;
- the breadth-first **hex pathfinder**;
- the small integer and state helpers underneath: axial coordinates and
  their neighbours and distance, the integer cube/axial conversions, the
  resource inventory, the building-type registry, build placement, instance
  binding and tile occupancy, the shared building tick guard and ring-of-six
  lookup, the three producers' clamped output formula, and the warehouse's
  cap-bonus toggle.

Each C# class becomes a module that holds immutable datatypes and pure functions.
The components that call the pathfinder (a method) are written as methods:
the worker agent's steps, and the search itself. A worker refers to its job
by index into the board's job list. This works because jobs are never
removed. Scene objects (buildings, building instances, terrain assets) are
referred to by a natural-number identity. A C# `null` becomes `Option.None`, except for resource ids (see Left out).

Files: `wrappers.dfy` (Option), `resources.dfy` (the three resource kinds
and a per-resource record), `seqs.dfy` (first-match search), `ints.dfy` (integer abs, min and max),
`worker_job.dfy`, `job_board.dfy`, `worker_manager.dfy`, `worker_agent.dfy`,
`hex_pathfinder.dfy`, `hex_coords.dfy`, `hex_metrics.dfy`, `hex_tile.dfy`,
`resource_inventory.dfy`, `building_type.dfy`, `building_type_registry.dfy`,
`building_placer.dfy`, `building_instance.dfy`, `building_behaviour.dfy`,
`producers.dfy` (lumber camp, quarry and well in one module, parameterised
by kind), `warehouse.dfy`.

## Behaviour the model keeps

The model keeps each of these behaviours of the code as written:

- `CompleteJob` and `InvalidateJob` overwrite the status with no check. A
  Done job can later become Invalid, and the other way round
  (`JobBoard.LastFlipWins`).
- The quota's first check looks at the pending **amount** of a resource
  (`CountPending <= 0`), not at whether a pending job exists. An amount of
  0 or below counts as no work even when Pending jobs exist.
- When the smoothed needs sum to less than 0.0001, the code divides by 1
  instead of falling back to equal weights (`WorkerManager.Normalize`).
- The smoothed needs advance on every worker request, not once per tick.
- A claim is released once per **trip**, not once per claim. `DoUnload`
  releases on every delivery and loops back to the source without claiming
  again. A failed re-plan after a delivery releases a second time through
  `AbortJob`. The active-worker counter stays at or above zero only because
  the release clamps it. So the model does not claim that claims and
  releases balance. It proves only that the counters stay inside their
  limits (`WorkerManager.QuotaPreserved`).
- `ResourceInventory.Add` has no cap. The warehouse calls `AddCaps`;
  `maxWood` and `AddCaps` are outside the modelled code and are treated as
  abstract collaborators (see Left out).
- A path-planning failure right after loading drops the load: the units
  already came off the producer and the job's amount, and `AbortJob`
  clears the hands.
- `minWorkersPerResource` is never read.
- `ReachedTarget` ignores the target it is given.

## Model

| member | source | states |
|---|---|---|
| WorkerJob.NewJob | HexBuilder/Assets/Scripts/Systems/Workers/WorkerJob.cs:7-16 | a new job starts Pending and carries exactly the given resource id, integer amount, source and destination |
| JobBoard.PostOrUpdateJob | HexBuilder/Assets/Scripts/Systems/Workers/JobBoard.cs:22-38 | posting nothing changes nothing; a post matching a Pending job on the same (source, dest, resource) adds its amount to the first such job and keeps the length; otherwise it is appended below the cap and dropped at the cap, so growth never passes maxJobs |
| JobBoard.TryClaimJob | HexBuilder/Assets/Scripts/Systems/Workers/JobBoard.cs:40-51 | hands out nothing (and changes nothing) exactly when no Pending job passes the filter; otherwise returns the lowest such index and flips only that job to Claimed |
| JobBoard.CountPending | HexBuilder/Assets/Scripts/Systems/Workers/JobBoard.cs:53-63 | with no Pending job of that resource carrying an amount, the backlog is 0 |
| JobBoard.PositiveBacklogHasJob | HexBuilder/Assets/Scripts/Systems/Workers/JobBoard.cs:53-63 | a positive backlog for r implies a Pending job for r with a positive amount exists |
| JobBoard.PendingSumUpdate | HexBuilder/Assets/Scripts/Systems/Workers/JobBoard.cs:53-63 | replacing one job changes the backlog by exactly the difference of the two jobs' contributions |
| JobBoard.PendingSumAppend | HexBuilder/Assets/Scripts/Systems/Workers/JobBoard.cs:53-63 | appending a job adds exactly its contribution to the backlog |
| JobBoard.PostBacklog | HexBuilder/Assets/Scripts/Systems/Workers/JobBoard.cs:22-38 | a merged post raises the posted resource's backlog by the posted amount; an appended post by its contribution; a dropped post changes no backlog |
| JobBoard.ClaimBacklog | HexBuilder/Assets/Scripts/Systems/Workers/JobBoard.cs:40-51 | a successful claim removes the claimed job's amount from its resource's backlog |
| JobBoard.CompleteJob | HexBuilder/Assets/Scripts/Systems/Workers/JobBoard.cs:65-69 | a null job changes nothing; otherwise the status becomes Done whatever it was, and the list length and every other job are unchanged |
| JobBoard.InvalidateJob | HexBuilder/Assets/Scripts/Systems/Workers/JobBoard.cs:71-75 | a null job changes nothing; otherwise the status becomes Invalid whatever it was, and the list length and every other job are unchanged |
| JobBoard.TerminalFlipsIdempotent | HexBuilder/Assets/Scripts/Systems/Workers/JobBoard.cs:65-75 | completing twice is completing once; invalidating twice is invalidating once |
| JobBoard.LastFlipWins | HexBuilder/Assets/Scripts/Systems/Workers/JobBoard.cs:65-75 | the flips have no forward-only guard: the later one decides the status, even over a terminal status |
| JobBoard.TerminalFlipBacklog | HexBuilder/Assets/Scripts/Systems/Workers/JobBoard.cs:65-75 | completing or invalidating removes a job's amount from the backlog exactly when it was still Pending |
| JobBoard.NonPendingUntouched | HexBuilder/Assets/Scripts/Systems/Workers/JobBoard.cs:26-47 | Claimed, Done and Invalid jobs never receive merged amounts, are never flipped by a claim and are never handed out |
| Resources.KindOf | HexBuilder/Assets/Scripts/Systems/Workers/WorkerManager.cs:39-47 | an id names a kind exactly when it equals that kind's dictionary key, compared case-sensitively |
| WorkerManager.LateUpdate | HexBuilder/Assets/Scripts/Systems/Workers/WorkerManager.cs:61-68 | the tick rises by exactly 1, all three claims-this-tick counters become 0, and nothing else changes |
| WorkerManager.NotifyRelease | HexBuilder/Assets/Scripts/Systems/Workers/WorkerManager.cs:101-105 | a null, empty or unknown id changes nothing; a known id lowers only its own active count, by 1 but never below 0 |
| WorkerManager.Need | HexBuilder/Assets/Scripts/Systems/Workers/WorkerManager.cs:110-117 | the need is exactly max(0, target − stock): never negative, at least target minus stock, and either 0 or exactly target minus stock; a missing inventory counts as an empty stock |
| WorkerManager.Score | HexBuilder/Assets/Scripts/Systems/Workers/WorkerManager.cs:120-127 | (definition) the raw score is the need plus backlogWeight times the pending amount on the board |
| WorkerManager.SmoothNeeds | HexBuilder/Assets/Scripts/Systems/Workers/WorkerManager.cs:125-132 | each smoothed need moves from its raw score towards its previous value by the smoothing factor, and nothing else in the manager changes |
| WorkerManager.SmoothingExtremes | HexBuilder/Assets/Scripts/Systems/Workers/WorkerManager.cs:130-132 | with smoothing 0 the smoothed need is the raw score; with smoothing 1 the manager is unchanged |
| WorkerManager.SmoothingKeepsQuota | HexBuilder/Assets/Scripts/Systems/Workers/WorkerManager.cs:76-85 | advancing the smoothed needs before the loop changes no quota decision, since the quota reads only the backlog and the counters |
| WorkerManager.Normalize | HexBuilder/Assets/Scripts/Systems/Workers/WorkerManager.cs:135-142 | below a sum of 0.0001 the weights are the smoothed needs themselves (division by 1); otherwise each weight times the sum gives back its smoothed need |
| WorkerManager.NormalizeKeepsOrder | HexBuilder/Assets/Scripts/Systems/Workers/WorkerManager.cs:135-142 | dividing by the (possibly replaced) sum keeps the order of the smoothed needs, and the weights sum to 1 when the real sum is at least 0.0001 |
| WorkerManager.SortByWeight | HexBuilder/Assets/Scripts/Systems/Workers/WorkerManager.cs:148-153 | the sorted list is a permutation of its input and is non-increasing in weight |
| WorkerManager.RankResourcesForWorker | HexBuilder/Assets/Scripts/Systems/Workers/WorkerManager.cs:145-173 | the ranking is a permutation of wood, stone and water; while the worker's sticky window is open its resource comes first and the rest are non-increasing in weight; otherwise the whole list is |
| WorkerManager.Granted | HexBuilder/Assets/Scripts/Systems/Workers/WorkerManager.cs:89-92 | a successful claim for r raises r's active and claims-this-tick counters by exactly 1, leaves the other kinds' counters alone, and sets the worker's sticky entry to (r, tick + stickiness) |
| WorkerManager.QuotaAllows | HexBuilder/Assets/Scripts/Systems/Workers/WorkerManager.cs:175-189 | (definition) a resource may receive a claim exactly when its pending amount is above 0, its claims this tick are below the per-tick limit, and its active workers are below the worker limit |
| WorkerManager.TryInOrder | HexBuilder/Assets/Scripts/Systems/Workers/WorkerManager.cs:82-98 | a job is granted exactly when some listed resource passes its quota; the granted job is the board's first Pending job for that resource (JobBoard's first match) and is now Claimed, with the counters and sticky entry updated for it; no grant changes nothing |
| WorkerManager.TryInOrderFirstAllowed | HexBuilder/Assets/Scripts/Systems/Workers/WorkerManager.cs:82-95 | the granted resource is the first in the order that the quota allows; every earlier one was refused |
| WorkerManager.GrantWhenSomeQuota | HexBuilder/Assets/Scripts/Systems/Workers/WorkerManager.cs:82-95 | trying all three kinds in any order grants a job whenever some resource passes its quota |
| WorkerManager.ClaimInAnyRanking | HexBuilder/Assets/Scripts/Systems/Workers/WorkerManager.cs:82-98 | claiming in any order of the three kinds grants a job exactly when some resource passes its quota, grants the first allowed kind in that order, and keeps the counters within their limits |
| WorkerManager.ClaimRanked | HexBuilder/Assets/Scripts/Systems/Workers/WorkerManager.cs:79-98 | a job is granted exactly when some resource passes its quota; the granted resource is the first one in RankResourcesForWorker's order that the quota allows, its first Pending job is claimed, and a grant never pushes a counter past its limit |
| WorkerManager.TryClaimJobFor | HexBuilder/Assets/Scripts/Systems/Workers/WorkerManager.cs:71-99 | without a job board nothing is granted and nothing changes; otherwise the smoothed needs advance, and a job is granted exactly when some resource passes its quota (pending amount above 0, claims-this-tick below the limit, active workers below the limit); the granted resource is the first allowed one in the sticky-first, weight-ranked order over the normalised smoothed needs, the job is its first Pending job, and the claim bookkeeping is done for that resource |
| WorkerManager.FirstAllowedHeaviest | HexBuilder/Assets/Scripts/Systems/Workers/WorkerManager.cs:82-85 | in an order non-increasing by weight, the first resource the quota allows weighs at least as much as every other allowed resource |
| WorkerManager.StickyKindWins | HexBuilder/Assets/Scripts/Systems/Workers/WorkerManager.cs:156-166 | while a worker's sticky window is open and the quota allows its resource, the request is granted for that resource |
| WorkerManager.GrantedKindHeaviest | HexBuilder/Assets/Scripts/Systems/Workers/WorkerManager.cs:79-98 | with no open sticky window, whenever some resource passes its quota a job is granted, and for a resource whose weight is at least that of every other resource the quota allows |
| WorkerManager.InitialWithinQuota | HexBuilder/Assets/Scripts/Systems/Workers/WorkerManager.cs:42-51 | the initial counters are all zero and so within every limit |
| WorkerManager.GrantKeepsQuota | HexBuilder/Assets/Scripts/Systems/Workers/WorkerManager.cs:175-189 | because a grant only happens below both limits, it keeps both counters within them |
| WorkerManager.QuotaPreserved | HexBuilder/Assets/Scripts/Systems/Workers/WorkerManager.cs:71-99 | no worker request pushes a claims-this-tick or active-worker counter past its limit |
| WorkerManager.ReleaseAndResetKeepQuota | HexBuilder/Assets/Scripts/Systems/Workers/WorkerManager.cs:61-105 | a release and the per-frame reset keep the counters within their limits and non-negative |
| WorkerAgent.NewAgent | HexBuilder/Assets/Scripts/Systems/Workers/WorkerAgent.cs:14-32 | a new worker is Idle, holds no job, carries nothing and has an empty path at cursor 0 |
| WorkerAgent.AbortJob | HexBuilder/Assets/Scripts/Systems/Workers/WorkerAgent.cs:161-171 | always ends Idle with no job and empty hands; a held job is invalidated and its resource released, and nothing else changes |
| WorkerAgent.CompleteOrInvalidate | HexBuilder/Assets/Scripts/Systems/Workers/WorkerAgent.cs:149-158 | releases the held job's resource, completes the job when its amount is at most 0 and invalidates it otherwise, and returns to Idle without a job; the hands are not touched |
| WorkerAgent.PlanPathTo | HexBuilder/Assets/Scripts/Systems/Workers/WorkerAgent.cs:174-187 | a missing target or tile fails and keeps the old path; otherwise the cursor resets to 0 and planning succeeds exactly when the new path is non-empty, and a successful path is a shortest walkable walk from here to the target |
| WorkerAgent.StepAlongPath | HexBuilder/Assets/Scripts/Systems/Workers/WorkerAgent.cs:189-205 | only the cursor changes, by at most 1 and never past the path's end; it advances exactly when the cursor is inside the path and either the step's tile is missing or the worker has arrived, and stays otherwise |
| WorkerAgent.ReachedTarget | HexBuilder/Assets/Scripts/Systems/Workers/WorkerAgent.cs:207-211 | (definition) the walk is over exactly when the path is non-empty and the cursor is at or past its end; the target argument is not read |
| WorkerAgent.WalkReachesTarget | HexBuilder/Assets/Scripts/Systems/Workers/WorkerAgent.cs:189-211 | a worker that arrives on every step reaches the end of a non-empty path after exactly the remaining number of frames, and ReachedTarget then holds |
| WorkerAgent.TryClaimJob | HexBuilder/Assets/Scripts/Systems/Workers/WorkerAgent.cs:74-86 | without a scheduler nothing happens; the scheduler's answer is always kept; no grant leaves the worker as it was; a grant clears the hands and, exactly when a walk from the tile underfoot to the job's source exists, heads ToSource on that job along a shortest such walk with the world otherwise unchanged, and otherwise aborts the job (AbortJob); id and capacity are kept |
| WorkerAgent.TakeJob | HexBuilder/Assets/Scripts/Systems/Workers/WorkerAgent.cs:80-85 | the granted job is held with empty hands; exactly when a walk to its source exists the worker enters ToSource on a shortest such walk from cursor 0 with the world unchanged, otherwise the job is aborted through AbortJob and left Invalid; id and capacity are kept |
| WorkerAgent.DoLoad | HexBuilder/Assets/Scripts/Systems/Workers/WorkerAgent.cs:93-112 | a missing job or source aborts; nothing taken ends the job through complete-or-invalidate; a positive take moves exactly that many units from the job's amount into the hands, and then, exactly when a walk to the destination exists, the worker enters ToDest on a shortest such walk with only the job's amount changed in the world, otherwise it aborts from the loaded state, dropping the load |
| WorkerAgent.DoUnload | HexBuilder/Assets/Scripts/Systems/Workers/WorkerAgent.cs:119-147 | adds exactly the carried amount to the stockpile, empties the hands and releases once; none left completes the job and goes Idle; amount left sends the worker ToSource on the same job, without a new claim and along a shortest walk, exactly when a walk to the source exists, and otherwise invalidates the job and releases a second time (once after the delivery, once in the abort); the guards abort or complete-or-invalidate as the code does |
| WorkerAgent.Update | HexBuilder/Assets/Scripts/Systems/Workers/WorkerAgent.cs:43-69 | per state: Idle has TryClaimJob's outcome, Loading DoLoad's and Unloading DoUnload's; ToSource and ToDest leave the world untouched, take one step and switch to Loading or Unloading exactly when that step ends the walk; every step keeps the agent consistent with the board (Idle iff no job, a held job Claimed, carry within capacity) |
| HexPathfinder.IsWalkable | HexBuilder/Assets/Scripts/Systems/Pathfinding/HexPathfinder.cs:10-16 | (definition) a tile is walkable exactly when it exists, has a terrain, and that terrain is not the profile's water asset (a missing profile or water slot excludes nothing) |
| HexPathfinder.WalkableSet | HexBuilder/Assets/Scripts/Systems/Pathfinding/HexPathfinder.cs:10-16 | a coordinate is in the walkable set exactly when its looked-up tile exists, has a terrain, and that terrain is not the profile's water |
| HexPathfinder.FindPath | HexBuilder/Assets/Scripts/Systems/Pathfinding/HexPathfinder.cs:18-68 | start == goal gives [start]; a non-empty result runs from start to goal through neighbouring walkable tiles; a result is found whenever some walk exists; and no walk is shorter |
| HexPathfinder.Search | HexBuilder/Assets/Scripts/Systems/Pathfinding/HexPathfinder.cs:23-67 | the breadth-first loop terminates and returns a shortest walk from start to goal, or the empty sequence exactly when none exists |
| HexPathfinder.ExpandNeighbors | HexBuilder/Assets/Scripts/Systems/Pathfinding/HexPathfinder.cs:37-48 | after the direction loop every walkable neighbour of the current coordinate is discovered, one level deeper, with the current coordinate as parent |
| HexPathfinder.Visit | HexBuilder/Assets/Scripts/Systems/Pathfinding/HexPathfinder.cs:32-49 | one dequeue-and-expand keeps the breadth-first frontier invariant and strictly shrinks the unvisited-plus-queued measure |
| HexPathfinder.Reconstruct | HexBuilder/Assets/Scripts/Systems/Pathfinding/HexPathfinder.cs:59-67 | following parent links from the goal gives a walk from start to goal of exactly the goal's level plus one |
| HexPathfinder.NoWalkToUndiscovered | HexBuilder/Assets/Scripts/Systems/Pathfinding/HexPathfinder.cs:52-57 | when the search ends without discovering the goal, no walk reaches it |
| HexPathfinder.NoShorterWalk | HexBuilder/Assets/Scripts/Systems/Pathfinding/HexPathfinder.cs:23-49 | no walk to a discovered coordinate is shorter than its breadth-first level |
| HexCoords.Equals | HexBuilder/Assets/Scripts/Systems/Map/HexCoords.cs:21 | equality holds exactly when both q and r match |
| HexCoords.AddSubCancel | HexBuilder/Assets/Scripts/Systems/Map/HexCoords.cs:25-26 | (a + b) − b == a and (a − b) + b == a |
| HexCoords.Neighbor | HexBuilder/Assets/Scripts/Systems/Map/HexCoords.cs:38-42 | for a non-negative direction, the neighbour is offset from the hex by directions[dir % 6] |
| HexCoords.NeighborInRange | HexBuilder/Assets/Scripts/Systems/Map/HexCoords.cs:29-42 | for 0 ≤ d < 6, Neighbor(d) is this + directions[d] |
| HexCoords.AdjacentIffDirection | HexBuilder/Assets/Scripts/Systems/Map/HexCoords.cs:29-37 | two hexes are adjacent exactly when their offset is one of the six table directions |
| HexCoords.NeighborIsAdjacent | HexBuilder/Assets/Scripts/Systems/Map/HexCoords.cs:38-42 | every neighbour is adjacent |
| HexCoords.AdjacentHasDirection | HexBuilder/Assets/Scripts/Systems/Map/HexCoords.cs:29-42 | every adjacent hex is Neighbor(d) for some d in 0..5 |
| HexCoords.AdjacentSymmetric | HexBuilder/Assets/Scripts/Systems/Map/HexCoords.cs:29-37 | adjacency is symmetric |
| HexCoords.NeighborOpposite | HexBuilder/Assets/Scripts/Systems/Map/HexCoords.cs:29-42 | Neighbor(d) followed by Neighbor((d + 3) % 6) returns to the start |
| HexCoords.NeighborsDistinct | HexBuilder/Assets/Scripts/Systems/Map/HexCoords.cs:29-42 | the six neighbours are pairwise distinct |
| HexCoords.Distance | HexBuilder/Assets/Scripts/Systems/Map/HexCoords.cs:45-54 | the distance is 0 exactly when the two hexes are equal |
| HexCoords.DistanceAxial | HexBuilder/Assets/Scripts/Systems/Map/HexCoords.cs:45-54 | the distance equals max(abs(Δq), abs(Δr), abs(Δq + Δr)) |
| HexCoords.DistanceNeighbor | HexBuilder/Assets/Scripts/Systems/Map/HexCoords.cs:45-54 | every neighbour lies at distance 1 |
| HexCoords.DistanceSymmetric | HexBuilder/Assets/Scripts/Systems/Map/HexCoords.cs:45-54 | distance is symmetric |
| HexCoords.DistanceTriangle | HexBuilder/Assets/Scripts/Systems/Map/HexCoords.cs:45-54 | distance satisfies the triangle inequality |
| HexCoords.DistanceTranslate | HexBuilder/Assets/Scripts/Systems/Map/HexCoords.cs:45-54 | distance is unchanged by translating both hexes by the same offset |
| HexMetrics.AxialToCube | HexBuilder/Assets/Scripts/Systems/Map/HexMetrics.cs:41-47 | x = q, z = r and x + y + z = 0 |
| HexMetrics.CubeToAxial | HexBuilder/Assets/Scripts/Systems/Map/HexMetrics.cs:50-53 | the axial pair keeps x as q and z as r |
| HexMetrics.AxialCubeRoundTrip | HexBuilder/Assets/Scripts/Systems/Map/HexMetrics.cs:41-53 | CubeToAxial(AxialToCube(q, r)) == (q, r) |
| HexMetrics.CubeAxialRoundTrip | HexBuilder/Assets/Scripts/Systems/Map/HexMetrics.cs:41-53 | on the x + y + z = 0 plane, cube → axial → cube is the identity |
| HexMetrics.CubeRoundFixUp | HexBuilder/Assets/Scripts/Systems/Map/HexMetrics.cs:66-73 | whatever the roundings, the repaired cube sums to 0; at most one component changes, and only the one with the largest rounding error |
| HexMetrics.FixUpKeepsValidCube | HexBuilder/Assets/Scripts/Systems/Map/HexMetrics.cs:66-73 | roundings already summing to 0 are kept as they are |
| HexTile.NewTile | HexBuilder/Assets/Scripts/Systems/Map/HexTile.cs:23-24 | a new tile has no occupant, so it is not occupied |
| HexTile.ApplyTerrain | HexBuilder/Assets/Scripts/Systems/Map/HexTile.cs:16-21 | the terrain becomes the given one, including none; coordinates and occupant are unchanged, and so is occupancy |
| HexTile.IndexedTile | HexBuilder/Assets/Scripts/Systems/Pathfinding/HexPathfinder.cs:70-75 | the key index answers first, then the struct index; a coordinate in neither finds nothing |
| ResourceInventory.Lower | HexBuilder/Assets/Scripts/Systems/Resources/ResourceInventory.cs:52 | lower-casing keeps the length and maps each character independently |
| ResourceInventory.KindOfId | HexBuilder/Assets/Scripts/Systems/Resources/ResourceInventory.cs:52-60 | an id names a counter exactly when its lower-cased form is "wood", "stone" or "water" |
| ResourceInventory.Add | HexBuilder/Assets/Scripts/Systems/Resources/ResourceInventory.cs:49-62 | amount 0 and an unknown id change nothing; a known id (any case) changes only its counter, by exactly amount |
| ResourceInventory.GetAmount | HexBuilder/Assets/Scripts/Systems/Resources/ResourceInventory.cs:80-91 | an unknown id reads 0 |
| ResourceInventory.SetAmount | HexBuilder/Assets/Scripts/Systems/Resources/ResourceInventory.cs:93-105 | an unknown id changes nothing; a known id leaves the other two counters unchanged |
| ResourceInventory.GetAll | HexBuilder/Assets/Scripts/Systems/Resources/ResourceInventory.cs:64-70 | reading through the three lower-case ids returns exactly the wood, stone and water counters |
| ResourceInventory.SetAll | HexBuilder/Assets/Scripts/Systems/Resources/ResourceInventory.cs:72-77 | writing through the three lower-case ids sets exactly the three given counters |
| ResourceInventory.SetThenGet | HexBuilder/Assets/Scripts/Systems/Resources/ResourceInventory.cs:80-105 | SetAmount(k, v) followed by GetAmount(k) returns v, whatever the case of k |
| ResourceInventory.UnknownIdIgnored | HexBuilder/Assets/Scripts/Systems/Resources/ResourceInventory.cs:57-105 | an unknown id reads 0, and neither Add nor SetAmount writes anywhere |
| ResourceInventory.AddThenGet | HexBuilder/Assets/Scripts/Systems/Resources/ResourceInventory.cs:49-91 | after Add(k, n), GetAmount(k) is the old amount plus n |
| ResourceInventory.SetAllGetAll | HexBuilder/Assets/Scripts/Systems/Resources/ResourceInventory.cs:64-77 | SetAll(w, s, wa) followed by GetAll() returns (w, s, wa) |
| ResourceInventory.CanAfford | HexBuilder/Assets/Scripts/Systems/Resources/ResourceInventory.cs:34-38 | (definition) false for a missing type; otherwise wood and stone each cover the type's cost, and water is not a cost |
| ResourceInventory.Pay | HexBuilder/Assets/Scripts/Systems/Resources/ResourceInventory.cs:40-47 | a missing type changes nothing; otherwise exactly the wood and stone costs are subtracted and water is unchanged |
| ResourceInventory.PayAfterAfford | HexBuilder/Assets/Scripts/Systems/Resources/ResourceInventory.cs:34-47 | paying for a type one can afford leaves wood and stone at or above 0 and water unchanged |
| BuildingTypeRegistry.BuildCache | HexBuilder/Assets/Settings/Buildings/BuildingTypeRegistry.cs:24-32 | the cache has a key exactly for each id that some entry with a non-blank id and a type carries, and never a blank key |
| BuildingTypeRegistry.OnEnable | HexBuilder/Assets/Settings/Buildings/BuildingTypeRegistry.cs:19-22 | enabling builds the cache and keeps the entries |
| BuildingTypeRegistry.GetById | HexBuilder/Assets/Settings/Buildings/BuildingTypeRegistry.cs:34-38 | the cache is built if absent and otherwise used as it is; a null id finds nothing; a found type is the cache's entry for the id |
| BuildingTypeRegistry.LastUsableWins | HexBuilder/Assets/Settings/Buildings/BuildingTypeRegistry.cs:27-30 | with several usable entries for one id, the last one's type is returned |
| BuildingTypeRegistry.UnregisteredFindsNothing | HexBuilder/Assets/Settings/Buildings/BuildingTypeRegistry.cs:27-37 | an id that no usable entry carries finds nothing |
| BuildingTypeRegistry.BlankIdFindsNothing | HexBuilder/Assets/Settings/Buildings/BuildingTypeRegistry.cs:29 | a null, empty or white-space id never finds a type |
| BuildingTypeRegistry.LazyBuildAgrees | HexBuilder/Assets/Settings/Buildings/BuildingTypeRegistry.cs:36 | a lookup in a never-built registry gives the same answer as one after an explicit build |
| BuildingPlacer.IsValidPlacement | HexBuilder/Assets/Scripts/Systems/Buildings/BuildingPlacer.cs:105-118 | a null or occupied tile, a missing or unbuildable terrain, or a terrain off a non-empty allowed list is rejected; every other tile is accepted |
| BuildingPlacer.EnterBuildMode | HexBuilder/Assets/Scripts/Systems/Buildings/BuildingPlacer.cs:77-83 | sets the active type, turns build mode on and the yaw to 0 |
| BuildingPlacer.ExitBuildMode | HexBuilder/Assets/Scripts/Systems/Buildings/BuildingPlacer.cs:85-90 | turns build mode off and drops the active type; the yaw is kept |
| BuildingPlacer.Place | HexBuilder/Assets/Scripts/Systems/Buildings/BuildingPlacer.cs:120-131 | places exactly when there is a tile and an active type, and the new instance is bound to that tile with the active type |
| BuildingPlacer.Update | HexBuilder/Assets/Scripts/Systems/Buildings/BuildingPlacer.cs:42-74 | nothing happens outside build mode; Q and E turn the yaw by exactly −60 and +60; a building is placed exactly on a click over a valid tile; Escape leaves build mode |
| BuildingPlacer.PlacedTileRejectsNext | HexBuilder/Assets/Scripts/Systems/Buildings/BuildingPlacer.cs:68-69 | a tile just built on is occupied, so it rejects any further placement |
| BuildingPlacer.RepaintedOccupiedTileRejects | HexBuilder/Assets/Scripts/Systems/Buildings/BuildingPlacer.cs:105-110 | changing an occupied tile's terrain does not free it for placement |
| BuildingPlacer.TurnsCancel | HexBuilder/Assets/Scripts/Systems/Buildings/BuildingPlacer.cs:64-65 | pressing Q and E in the same frame leaves the yaw unchanged |
| BuildingPlacer.EnterWithoutTypePlacesNothing | HexBuilder/Assets/Scripts/Systems/Buildings/BuildingPlacer.cs:44 | build mode entered with no type never places and never changes |
| BuildingPlacer.EnterExitLaws | HexBuilder/Assets/Scripts/Systems/Buildings/BuildingPlacer.cs:77-90 | entering overrides any earlier exit, exiting is idempotent, and exit after enter is the reset placer |
| BuildingInstance.NewInstance | HexBuilder/Assets/Scripts/Systems/Buildings/BuildingInstance.cs:8-10 | a fresh instance has no type and no tile |
| BuildingInstance.Bind | HexBuilder/Assets/Scripts/Systems/Buildings/BuildingInstance.cs:12-18 | after binding the instance has the given type, the given tile and that tile's coordinates, and the tile's occupant is the instance; the tile is otherwise unchanged |
| BuildingInstance.BindIdempotent | HexBuilder/Assets/Scripts/Systems/Buildings/BuildingInstance.cs:12-18 | binding again to the tile already bound changes nothing |
| BuildingInstance.BindOverwrites | HexBuilder/Assets/Scripts/Systems/Buildings/BuildingInstance.cs:17 | a second bind replaces the previous occupant without a check and keeps no trace of it |
| BuildingBehaviour.GetTileAt | HexBuilder/Assets/Scripts/Systems/Buildings/BuildingBehaviour.cs:55-73 | the key index answers first, then the struct index, then the first live scene tile standing at the coordinate; otherwise nothing |
| BuildingBehaviour.GetTileAtStandsThere | HexBuilder/Assets/Scripts/Systems/Buildings/BuildingBehaviour.cs:55-73 | with well-keyed indexes, a found tile stands at the coordinate looked up |
| BuildingBehaviour.GetNeighborsRing1 | HexBuilder/Assets/Scripts/Systems/Buildings/BuildingBehaviour.cs:87-99 | exactly six entries; all none without an instance or tile; entry d is the tile looked up at centre.Neighbor(d) |
| BuildingBehaviour.RingIsAdjacentAndDistinct | HexBuilder/Assets/Scripts/Systems/Buildings/BuildingBehaviour.cs:87-99 | with well-keyed indexes every ring tile is adjacent to the centre, and tiles found in different directions stand on different coordinates |
| BuildingBehaviour.OnTickSafe | HexBuilder/Assets/Scripts/Systems/Buildings/BuildingBehaviour.cs:23-37 | the tick runs exactly when instance, tile and inventory are present and a profile is held or obtained from the generator; a missing profile is replaced by exactly the generator's result, a held profile is never replaced, and a failed instance/tile/inventory check leaves the host unchanged |
| BuildingBehaviour.ProfileStaysResolved | HexBuilder/Assets/Scripts/Systems/Buildings/BuildingBehaviour.cs:29-34 | once a tick has run, the resolved profile is kept and the next guard passes without the generator |
| Producers.DefaultProducer | HexBuilder/Assets/Scripts/Systems/Buildings/LumberCampBehaviour.cs:9-11 | the default producers have base 0 and 1 per matching neighbour |
| Producers.CountMatches | HexBuilder/Assets/Scripts/Systems/Buildings/LumberCampBehaviour.cs:24-61 | null tiles and tiles without terrain do not count, so the count lies between 0 and the ring size (6); an unset slot counts nothing |
| Producers.IsMatch | HexBuilder/Assets/Scripts/Systems/Buildings/LumberCampBehaviour.cs:32-57 | (definition) a terrain matches a set slot when it is the same asset, or both ids are non-empty and equal, or its name equals the slot's name or display name; an unset slot matches nothing |
| Producers.CountIsMatchSetSize | HexBuilder/Assets/Scripts/Systems/Buildings/QuarryBehaviour.cs:18-48 | the count is exactly the number of directions whose tile matches |
| Producers.SlotTerrainCounts | HexBuilder/Assets/Scripts/Systems/Buildings/WellBehaviour.cs:26 | a tile whose terrain is the slot's own asset always counts |
| Producers.Clamp | HexBuilder/Assets/Scripts/Systems/Buildings/LumberCampBehaviour.cs:63 | a value below lo gives lo; with lo ≤ hi the result is max(lo, min(v, hi)), so it lies in lo..hi and equals the value when it is already inside |
| Producers.Amount | HexBuilder/Assets/Scripts/Systems/Buildings/QuarryBehaviour.cs:50 | a negative base + count·per gives 0; with a non-negative cap the amount is exactly max(0, min(base + count·per, maxPerTick)), so it lies between 0 and maxPerTick |
| Producers.AmountMonotone | HexBuilder/Assets/Scripts/Systems/Buildings/QuarryBehaviour.cs:50 | with non-negative per and cap, a larger match count never gives a smaller amount |
| Producers.OnTick | HexBuilder/Assets/Scripts/Systems/Buildings/LumberCampBehaviour.cs:15-69 | no output without inventory, instance or profile; when inventory, instance and profile are all present and that amount is positive there is always an output; an output is of the producer's own resource and is exactly clamp(base + count·per, 0, maxPerTick), and only when positive |
| Producers.Tick | HexBuilder/Assets/Scripts/Systems/Buildings/BuildingBehaviour.cs:23-37 | nothing is produced when the shared guard does not pass; when it passes, the output is the producer's OnTick over the ring of six around the resolved host |
| Producers.DefaultOutputIsCount | HexBuilder/Assets/Scripts/Systems/Buildings/WellBehaviour.cs:17-52 | with the default settings a producer outputs exactly min(matching neighbours, cap), and nothing when none match |
| Producers.UnsetSlotProducesNothing | HexBuilder/Assets/Scripts/Systems/Buildings/QuarryBehaviour.cs:26-44 | with the profile slot unset nothing counts and a default producer is idle |
| Warehouse.Apply | HexBuilder/Assets/Scripts/Systems/Buildings/WarehouseBehaviour.cs:20-28 | while applied nothing changes; without an inventory nothing changes and the bonus stays unapplied; otherwise the bonus is added once and the flag set |
| Warehouse.Remove | HexBuilder/Assets/Scripts/Systems/Buildings/WarehouseBehaviour.cs:30-38 | when not applied nothing changes; without an inventory the flag clears and no cap changes; otherwise the bonus is taken back once |
| Warehouse.OnEnable | HexBuilder/Assets/Scripts/Systems/Buildings/WarehouseBehaviour.cs:40-44 | with an inventory, enabling leaves the bonus applied |
| Warehouse.OnDisable | HexBuilder/Assets/Scripts/Systems/Buildings/WarehouseBehaviour.cs:46-50 | disabling always leaves the bonus unapplied |
| Warehouse.OnDestroy | HexBuilder/Assets/Scripts/Systems/Buildings/WarehouseBehaviour.cs:52-56 | destroying always leaves the bonus unapplied |
| Warehouse.HooksKeepAccounts | HexBuilder/Assets/Scripts/Systems/Buildings/WarehouseBehaviour.cs:40-56 | every hook keeps the caps equal to the base plus the bonus exactly when the flag says applied |
| Warehouse.ToggleIdempotent | HexBuilder/Assets/Scripts/Systems/Buildings/WarehouseBehaviour.cs:20-38 | applying twice is applying once; removing twice is removing once |
| Warehouse.ApplyThenRemoveNetsZero | HexBuilder/Assets/Scripts/Systems/Buildings/WarehouseBehaviour.cs:20-38 | Apply followed by Remove leaves the caps as they were and the flag cleared |
| Warehouse.DisableThenDestroyRemovesOnce | HexBuilder/Assets/Scripts/Systems/Buildings/WarehouseBehaviour.cs:46-56 | OnDisable followed by OnDestroy takes the bonus back exactly once |
| Warehouse.Tick | HexBuilder/Assets/Scripts/Systems/Buildings/WarehouseBehaviour.cs:15-18 | the warehouse's tick changes neither the warehouse nor the caps |

## Left out

- Floating point: the smoothed needs and weights use Dafny `real`. Single-precision rounding in `Mathf.Lerp`, the sums and the division is not modelled. The ghost yaw is an integer number of degrees.
- Integer width: amounts, counters, the tick counter and coordinates are unbounded integers. 32-bit wrap-around is not modelled.
- HexCoords.Distance: the source passes each integer cube difference through a float and `RoundToInt`. That is exact only below 2^24, and the model uses the exact integer difference.
- HexCoords.Neighbor: requires a non-negative direction. A negative one indexes outside the table in the source, because C# `%` keeps the sign.
- HexMetrics float geometry (`AxialToWorld`, `WorldToAxial`, `RoundAxial`, and the roundings and errors inside `CubeRound`) is left out. Only the integer repair step is modelled, and the three rounding errors are its inputs.
- Worker movement geometry: `Vector3.MoveTowards`, `Time.deltaTime` and the arrival threshold are collapsed into one "arrived" input per frame. `FindClosestTileUnderMe` becomes the `here` input.
- The producer output buffer (`TakeFromOutput`, `AddToOutput`) is outside the modelled code; it is treated as an abstract collaborator. Loading takes a `take` function that hands over at most what was asked. A producer's tick returns its output instead of adding it to a buffer.
- The stockpile caps (`AddCaps`, `maxWood` and the like) are outside the modelled code; they are treated as abstract collaborators. The warehouse works on a separate three-cap record, and `AddCaps` is taken to add its three arguments.
- ResourceInventory.Add, GetAmount, SetAmount: a null id throws in the source; ids are non-null strings in the model, and no modelled caller passes null.
- `ResourceInventory.CanAffordMove` and `PayMove` use a float rate and `CeilToInt`, so they are left out. The `OnChanged` event and the warning logs are left out too.
- Tick and event plumbing is left out: `TickManager`, the `OnTick` subscriptions in `OnEnable`/`OnDisable`/`OnDestroy`, and the scene searches in `TryResolveRefs`. The behaviour hooks only resolve references and (un)subscribe. The references they would find are inputs (`Host`, `generatorProfile`, the warehouse's optional caps).
- Singletons: `JobBoard.Instance` and `WorkerManager.Instance` become explicit values. A worker always sees a job board, so the code's null checks on the board (and the null-reference failures in `CompleteOrInvalidate` and `DoUnload` when it is missing) are not modelled.
- WorkerAgent.DoUnload: the destination's stockpile (`GetComponentInParent`, then a scene search) and the scheduler's inventory are one optional stockpile in the model.
- WorkerJob.Job: source and destination are building identities. That the source is a producer and the destination a warehouse is not enforced by a type.
- Several workers in one frame are not interleaved in one model step. Each worker's step takes and returns the shared board and scheduler. No job can be granted twice because a claim flips it out of Pending (`JobBoard.NonPendingUntouched`).
- The pathfinder's string keys `"q,r"` and the generator's key index are keyed by the coordinate itself, since that key is injective.
- `BuildingPlacer` visuals are left out: the ghost, tinting, raycasting and input polling. The tile under the mouse and the keys pressed are a per-frame input.
- Status strings for the UI (`GetStatusText`, `DebugLabel`) are left out.
- WorkerManager.RankResourcesForWorker: `List.Sort` is unstable, so the contract states only that the order is non-increasing in weight, not which of two equal weights comes first.

=== FILE: building_behaviour.dfy ===
/** What every building behaviour shares: the guard in front of each tick,
    the tile lookup, and the ring of six neighbouring tiles. */
module BuildingBehaviour {
  import opened Wrappers
  import opened Seqs
  import opened HexCoords
  import opened HexTile
  import opened BuildingInstance

  /** The scene a behaviour looks into: the generator's two indexes, and
      every tile object the scene search would return, in that order
      (None for a destroyed one). */
  datatype Scene = Scene(idx: TileIndex, tiles: seq<Option<Tile>>)

  /** The references a behaviour holds. `hasInventory` is whether the
      stockpile reference resolved; `profile` None is an unresolved profile. */
  datatype Host = Host(instance: Option<Instance>, hasInventory: bool, profile: Option<Profile>)

  /** A live scene tile standing at c. */
  predicate SceneTileAt(o: Option<Tile>, c: Hex)
  {
    o.Some? && o.value.coords == c
  }

  /** The tile at c: the key index when it has an entry for c (even one that
      holds a destroyed tile), else the struct index, else the first live
      scene tile standing at c, else none. */
  function GetTileAt(scene: Scene, c: Hex): (t: Option<Tile>)
    ensures c in scene.idx.byKey ==> t == scene.idx.byKey[c]
    ensures c !in scene.idx.byKey && c in scene.idx.byStruct ==> t == scene.idx.byStruct[c]
    ensures c !in scene.idx.byKey && c !in scene.idx.byStruct ==>
              (t.Some? <==> exists i :: 0 <= i < |scene.tiles| && SceneTileAt(scene.tiles[i], c))
    ensures c !in scene.idx.byKey && c !in scene.idx.byStruct && t.Some? ==>
              exists i :: 0 <= i < |scene.tiles| && scene.tiles[i] == t && t.value.coords == c
                && forall k :: 0 <= k < i ==> !SceneTileAt(scene.tiles[k], c)
  {
    if c in scene.idx.byKey || c in scene.idx.byStruct then IndexedTile(scene.idx, c)
    else
      match FirstIndex(scene.tiles, o => SceneTileAt(o, c))
      case Some(i) => scene.tiles[i]
      case None => None
  }

  /** Every index entry holds a tile standing at its own key, or a
      destroyed tile. */
  predicate WellKeyed(idx: TileIndex)
  {
    && (forall c :: c in idx.byKey && idx.byKey[c].Some? ==> idx.byKey[c].value.coords == c)
    && (forall c :: c in idx.byStruct && idx.byStruct[c].Some? ==> idx.byStruct[c].value.coords == c)
  }

  /** With well-keyed indexes, a found tile stands where it was looked for. */
  lemma GetTileAtStandsThere(scene: Scene, c: Hex)
    requires WellKeyed(scene.idx)
    ensures GetTileAt(scene, c).Some? ==> GetTileAt(scene, c).value.coords == c
  {
  }

  /** The centre of the ring: the coordinates of the instance's tile, when
      the behaviour has an instance bound to a tile. */
  function Center(host: Host): Option<Hex>
  {
    if host.instance.Some? && host.instance.value.tile.Some? then Some(host.instance.value.tile.value.coords) else None
  }

  /** The six tiles around the instance's tile, entry d in direction d; all
      six are none when there is no instance or it stands on no tile. */
  function GetNeighborsRing1(scene: Scene, host: Host): (ring: seq<Option<Tile>>)
    ensures |ring| == 6
    ensures Center(host).None? ==> forall d :: 0 <= d < 6 ==> ring[d].None?
    ensures Center(host).Some? ==> forall d :: 0 <= d < 6 ==> ring[d] == GetTileAt(scene, Neighbor(Center(host).value, d))
  {
    match Center(host)
    case None => [None, None, None, None, None, None]
    case Some(center) => seq(6, d requires 0 <= d < 6 => GetTileAt(scene, Neighbor(center, d)))
  }

  /** With well-keyed indexes the ring really is the ring: every tile found
      is adjacent to the centre, and tiles found in different directions
      stand on different coordinates. */
  lemma RingIsAdjacentAndDistinct(scene: Scene, host: Host, d1: int, d2: int)
    requires WellKeyed(scene.idx) && Center(host).Some?
    requires 0 <= d1 < 6 && 0 <= d2 < 6
    ensures var ring := GetNeighborsRing1(scene, host);
      ring[d1].Some? ==> Adjacent(Center(host).value, ring[d1].value.coords)
    ensures var ring := GetNeighborsRing1(scene, host);
      d1 != d2 && ring[d1].Some? && ring[d2].Some? ==> ring[d1].value.coords != ring[d2].value.coords
  {
    var center := Center(host).value;
    GetTileAtStandsThere(scene, Neighbor(center, d1));
    GetTileAtStandsThere(scene, Neighbor(center, d2));
    NeighborIsAdjacent(center, d1);
    if d1 != d2 {
      NeighborsDistinct(center, d1, d2);
    }
  }

  /** The guard in front of every tick. Without an instance, its tile or the
      stockpile nothing runs and nothing is resolved. Otherwise a missing
      profile is taken from the map generator (`generatorProfile`, None when
      there is no generator or it has no profile), and the tick runs only
      when a profile is then known. */
  function OnTickSafe(host: Host, generatorProfile: Option<Profile>): (r: (Host, bool))
    ensures r.1 ==> host.instance.Some? && host.instance.value.tile.Some? && host.hasInventory
    ensures r.1 <==> Center(host).Some? && host.hasInventory && (host.profile.Some? || generatorProfile.Some?)
    ensures r.1 ==> r.0.profile.Some?
    ensures host.profile.Some? ==> r.0 == host
    ensures r.0.instance == host.instance && r.0.hasInventory == host.hasInventory
    ensures Center(host).Some? && host.hasInventory && host.profile.None? ==> r.0 == host.(profile := generatorProfile)
    ensures !(Center(host).Some? && host.hasInventory) ==> r.0 == host
  {
    if host.instance.None? || host.instance.value.tile.None? || !host.hasInventory then (host, false)
    else if host.profile.None? then
      var host' := host.(profile := generatorProfile);
      (host', host'.profile.Some?)
    else (host, true)
  }

  /** Once a tick has run, the profile stays resolved: the next guard needs
      no generator. */
  lemma ProfileStaysResolved(host: Host, g1: Option<Profile>, g2: Option<Profile>)
    requires OnTickSafe(host, g1).1
    ensures OnTickSafe(OnTickSafe(host, g1).0, g2) == (OnTickSafe(host, g1).0, true)
  {
  }
}

=== FILE: building_instance.dfy ===
/** A placed building: its type, the tile it stands on and that tile's
    coordinates. Binding an instance to a tile also marks the tile occupied. */
module BuildingInstance {
  import opened Wrappers
  import opened HexCoords
  import opened HexTile
  import opened BuildingType

  /** `id` is the instance's identity, the value a tile's occupant holds;
      `tile` is the tile as bound. */
  datatype Instance = Instance(id: nat, buildingType: Option<BuildingType>, coords: Hex, tile: Option<Tile>)

  /** A freshly added component: no type, no tile, default coordinates. */
  function NewInstance(id: nat): (inst: Instance)
    ensures inst.id == id && inst.buildingType.None? && inst.tile.None?
  {
    Instance(id, None, Hex(0, 0), None)
  }

  /** The instance and its tile refer to each other. */
  predicate Bound(inst: Instance, tile: Tile)
  {
    inst.tile == Some(tile) && inst.coords == tile.coords && tile.occupant == Some(inst.id)
  }

  /** Binds the instance to a tile: records the type, the tile and its
      coordinates, and makes the instance the tile's occupant, replacing any
      previous occupant without a check. The tile is otherwise unchanged. */
  function Bind(inst: Instance, t: Option<BuildingType>, onTile: Tile): (r: (Instance, Tile))
    ensures Bound(r.0, r.1)
    ensures r.0.id == inst.id && r.0.buildingType == t
    ensures IsOccupied(r.1)
    ensures r.1.tileId == onTile.tileId && r.1.coords == onTile.coords && r.1.terrain == onTile.terrain
  {
    var tile' := onTile.(occupant := Some(inst.id));
    (inst.(buildingType := t, tile := Some(tile'), coords := onTile.coords), tile')
  }

  /** Binding again to the tile it already stands on changes nothing. */
  lemma BindIdempotent(inst: Instance, t: Option<BuildingType>, onTile: Tile)
    ensures var r := Bind(inst, t, onTile);
      Bind(r.0, t, r.1) == r
  {
  }

  /** Binding overwrites an occupant that was already there: the last bound
      instance wins, and the tile keeps no trace of the earlier one. */
  lemma BindOverwrites(first: Instance, second: Instance, t1: Option<BuildingType>, t2: Option<BuildingType>, onTile: Tile)
    requires first.id != second.id
    ensures var r1 := Bind(first, t1, onTile);
      var r2 := Bind(second, t2, r1.1);
      r2.1.occupant == Some(second.id) && r2.1 == Bind(second, t2, onTile).1
  {
  }
}

=== FILE: building_placer.dfy ===
/** Build mode: while a building type is active, each frame checks the tile
    under the mouse, turns the ghost on Q and E, places the building on a
    click over a valid tile, and leaves build mode on Escape. */
module BuildingPlacer {
  import opened Wrappers
  import opened HexTile
  import opened BuildingType
  import opened BuildingInstance

  /** `ghostYaw` is in whole degrees; it only ever moves in steps of 60. */
  datatype Placer = Placer(buildMode: bool, activeType: Option<BuildingType>, ghostYaw: int)

  /** One frame's input: the tile under the mouse (None when the ray hits no
      tile) and the keys and button pressed this frame. */
  datatype Frame = Frame(tile: Option<Tile>, keyQ: bool, keyE: bool, click: bool, escape: bool)

  /** What a frame did: the placer afterwards, and the instance bound with
      the tile it now occupies when a building was placed. */
  datatype Step = Step(placer: Placer, placed: Option<(Instance, Tile)>)

  /** A tile accepts the active type when it exists, is free, has buildable
      terrain, and that terrain is on the type's allowed list (an empty list
      allows every buildable terrain). */
  function IsValidPlacement(activeType: BuildingType, tile: Option<Tile>): (ok: bool)
    ensures tile.None? ==> !ok
    ensures tile.Some? && IsOccupied(tile.value) ==> !ok
    ensures tile.Some? && (tile.value.terrain.None? || !tile.value.terrain.value.buildable) ==> !ok
    ensures (tile.Some? && tile.value.terrain.Some? && |activeType.allowedTerrains| > 0
             && tile.value.terrain.value !in activeType.allowedTerrains) ==> !ok
    ensures (tile.Some? && !IsOccupied(tile.value) && tile.value.terrain.Some? && tile.value.terrain.value.buildable
             && (|activeType.allowedTerrains| == 0 || tile.value.terrain.value in activeType.allowedTerrains)) ==> ok
  {
    if tile.None? then false
    else if IsOccupied(tile.value) then false
    else if tile.value.terrain.None? || !tile.value.terrain.value.buildable then false
    else if |activeType.allowedTerrains| > 0 && tile.value.terrain.value !in activeType.allowedTerrains then false
    else true
  }

  /** Enters build mode for a type (possibly none), with the ghost turned back to 0. */
  function EnterBuildMode(p: Placer, t: Option<BuildingType>): (p': Placer)
    ensures p'.buildMode && p'.activeType == t && p'.ghostYaw == 0
  {
    Placer(true, t, 0)
  }

  /** Leaves build mode and drops the active type; the yaw is kept. */
  function ExitBuildMode(p: Placer): (p': Placer)
    ensures !p'.buildMode && p'.activeType.None? && p'.ghostYaw == p.ghostYaw
  {
    p.(buildMode := false, activeType := None)
  }

  /** Instantiates a building of the active type as instance `newId` and binds
      it to the tile; nothing without a tile or an active type. */
  function Place(p: Placer, tile: Option<Tile>, newId: nat): (r: Option<(Instance, Tile)>)
    ensures r.Some? <==> tile.Some? && p.activeType.Some?
    ensures r.Some? ==> (Bound(r.value.0, r.value.1) && r.value.0.id == newId
                         && r.value.0.buildingType == p.activeType && r.value.1.tileId == tile.value.tileId)
  {
    if tile.None? || p.activeType.None? then None
    else Some(Bind(NewInstance(newId), p.activeType, tile.value))
  }

  /** One frame. Outside build mode, or with no active type, nothing happens.
      Otherwise Q turns the ghost by -60 and E by +60, a click over a valid
      tile places a building there, and Escape then leaves build mode. */
  function Update(p: Placer, f: Frame, newId: nat): (s: Step)
    ensures !p.buildMode || p.activeType.None? ==> s == Step(p, None)
    ensures p.buildMode && p.activeType.Some? ==>
              s.placer.ghostYaw == p.ghostYaw - (if f.keyQ then 60 else 0) + (if f.keyE then 60 else 0)
    ensures s.placed.Some? <==> p.buildMode && p.activeType.Some? && f.click && IsValidPlacement(p.activeType.value, f.tile)
    ensures s.placed.Some? ==> (Bound(s.placed.value.0, s.placed.value.1) && s.placed.value.0.id == newId
                                && s.placed.value.0.buildingType == p.activeType
                                && s.placed.value.1.tileId == f.tile.value.tileId)
    ensures p.buildMode && p.activeType.Some? && f.escape ==> !s.placer.buildMode && s.placer.activeType.None?
    ensures p.buildMode && p.activeType.Some? && !f.escape ==> s.placer.buildMode && s.placer.activeType == p.activeType
  {
    if !p.buildMode || p.activeType.None? then Step(p, None)
    else
      var valid := IsValidPlacement(p.activeType.value, f.tile);
      var yaw := if f.keyQ then p.ghostYaw - 60 else p.ghostYaw;
      var yaw' := if f.keyE then yaw + 60 else yaw;
      var p1 := p.(ghostYaw := yaw');
      var placed := if f.click && valid then Place(p1, f.tile, newId) else None;
      Step(if f.escape then ExitBuildMode(p1) else p1, placed)
  }

  /** A tile a building was just placed on no longer accepts one: the same
      click can never stack two buildings on one tile. */
  lemma PlacedTileRejectsNext(p: Placer, f: Frame, newId: nat, t: BuildingType)
    requires Update(p, f, newId).placed.Some?
    ensures !IsValidPlacement(t, Some(Update(p, f, newId).placed.value.1))
  {
  }

  /** Changing a placed tile's terrain does not free it. */
  lemma RepaintedOccupiedTileRejects(tile: Tile, terr: Option<Terrain>, t: BuildingType)
    requires IsOccupied(tile)
    ensures !IsValidPlacement(t, Some(ApplyTerrain(tile, terr)))
  {
  }

  /** Pressing Q and E in the same frame leaves the ghost where it was. */
  lemma TurnsCancel(p: Placer, tile: Option<Tile>, click: bool, escape: bool, newId: nat)
    requires p.buildMode && p.activeType.Some?
    ensures Update(p, Frame(tile, true, true, click, escape), newId).placer.ghostYaw == p.ghostYaw
  {
  }

  /** Entering build mode with no type arms nothing: no frame can place. */
  lemma EnterWithoutTypePlacesNothing(p: Placer, f: Frame, newId: nat)
    ensures Update(EnterBuildMode(p, None), f, newId) == Step(EnterBuildMode(p, None), None)
  {
  }

  /** Entering discards the previous mode, type and yaw; leaving twice is
      leaving once. */
  lemma EnterExitLaws(p: Placer, t: Option<BuildingType>)
    ensures EnterBuildMode(ExitBuildMode(p), t) == EnterBuildMode(p, t)
    ensures ExitBuildMode(ExitBuildMode(p)) == ExitBuildMode(p)
    ensures ExitBuildMode(EnterBuildMode(p, t)) == Placer(false, None, 0)
  {
  }
}

=== FILE: building_type.dfy ===
/** The building type asset: which terrains allow it and what it costs. */
module BuildingType {
  import opened HexTile

  /** `asset` is the asset's identity. A missing allowed-terrain list is
      modelled as the empty list, which the placer treats the same way. */
  datatype BuildingType = BuildingType(asset: nat, displayName: string, allowedTerrains: seq<Terrain>, costWood: int, costStone: int)
}

=== FILE: building_type_registry.dfy ===
/** The registry asset that maps string ids to building types. Its lookup
    cache is built from the entry list on enable, or lazily on the first
    lookup when it was never built. */
module BuildingTypeRegistry {
  import opened Wrappers
  import opened BuildingType

  /** One inspector row; `id` None and `buildingType` None are the null
      references the inspector may leave. */
  datatype Entry = Entry(id: Option<string>, buildingType: Option<BuildingType>)

  /** `cache` None is a cache that was never built. */
  datatype Registry = Registry(entries: seq<Entry>, cache: Option<map<string, BuildingType>>)

  /** The characters the runtime classes as white space. */
  predicate IsWhiteSpace(c: char)
  {
    ('\U{0009}' <= c <= '\U{000D}') || c == ' ' || c == '\U{0085}' || c == '\U{00A0}' || c == '\U{1680}'
    || ('\U{2000}' <= c <= '\U{200A}') || c == '\U{2028}' || c == '\U{2029}' || c == '\U{202F}'
    || c == '\U{205F}' || c == '\U{3000}'
  }

  /** Null, empty, or nothing but white space. */
  predicate IsNullOrWhiteSpace(s: Option<string>)
  {
    s.None? || forall i :: 0 <= i < |s.value| ==> IsWhiteSpace(s.value[i])
  }

  /** An entry the cache keeps: a usable id and a type. */
  predicate Usable(e: Entry)
  {
    !IsNullOrWhiteSpace(e.id) && e.buildingType.Some?
  }

  /** A usable entry registered under exactly this id. */
  predicate UsableFor(e: Entry, id: string)
  {
    Usable(e) && e.id.value == id
  }

  /** The cache: one key per usable id and no other key. Which of several
      entries with the same id supplies the type is stated by LastUsableWins. */
  function BuildCache(entries: seq<Entry>): (cache: map<string, BuildingType>)
    ensures forall id :: id in cache ==> !IsNullOrWhiteSpace(Some(id))
    ensures forall id :: id in cache <==> exists i :: 0 <= i < |entries| && UsableFor(entries[i], id)
  {
    if |entries| == 0 then map[]
    else
      var prefix := entries[..|entries| - 1];
      var e := entries[|entries| - 1];
      var c := BuildCache(prefix);
      assert forall i :: 0 <= i < |prefix| ==> prefix[i] == entries[i];
      if Usable(e) then c[e.id.value := e.buildingType.value] else c
  }

  /** The registry as it is after being enabled: the cache rebuilt from the
      current entries. */
  function OnEnable(reg: Registry): (reg': Registry)
    ensures reg'.entries == reg.entries && reg'.cache.Some?
  {
    reg.(cache := Some(BuildCache(reg.entries)))
  }

  /** Looks an id up, first building the cache when it was never built. A
      null id finds nothing. An already built cache is used as it is, even
      if the entries changed since. */
  function GetById(reg: Registry, id: Option<string>): (r: (Registry, Option<BuildingType>))
    ensures r.0.entries == reg.entries && r.0.cache.Some?
    ensures reg.cache.Some? ==> r.0 == reg
    ensures id.None? ==> r.1.None?
    ensures id.Some? ==> (r.1.Some? <==> id.value in r.0.cache.value)
    ensures r.1.Some? ==> r.1 == Some(r.0.cache.value[id.value])
  {
    var reg' := if reg.cache.None? then OnEnable(reg) else reg;
    var cache := reg'.cache.value;
    if id.Some? && id.value in cache then (reg', Some(cache[id.value])) else (reg', None)
  }

  /** An id only usable entries carry finds the type of the last of them. */
  lemma {:induction false} LastUsableWins(entries: seq<Entry>, id: string, i: nat)
    requires i < |entries| && UsableFor(entries[i], id)
    requires forall j :: i < j < |entries| ==> !UsableFor(entries[j], id)
    ensures GetById(Registry(entries, None), Some(id)).1 == entries[i].buildingType
  {
    if i < |entries| - 1 {
      var prefix := entries[..|entries| - 1];
      assert prefix[i] == entries[i];
      assert forall j :: i < j < |prefix| ==> prefix[j] == entries[j];
      LastUsableWins(prefix, id, i);
      assert !UsableFor(entries[|entries| - 1], id);
    }
  }

  /** An id no usable entry carries finds nothing: entries with a blank id
      or a missing type never reach the cache. */
  lemma UnregisteredFindsNothing(entries: seq<Entry>, id: string)
    requires forall i :: 0 <= i < |entries| ==> !UsableFor(entries[i], id)
    ensures GetById(Registry(entries, None), Some(id)).1.None?
  {
  }

  /** A blank id never finds a type, whatever the entries. */
  lemma BlankIdFindsNothing(reg: Registry, id: string)
    requires IsNullOrWhiteSpace(Some(id))
    requires reg.cache.Some? ==> reg.cache.value == BuildCache(reg.entries)
    ensures GetById(reg, Some(id)).1.None?
  {
  }

  /** The lazy build gives the same answers as an explicit one: looking up
      in a never-built registry equals looking up after enabling it. */
  lemma LazyBuildAgrees(reg: Registry, id: Option<string>)
    requires reg.cache.None?
    ensures GetById(reg, id) == GetById(OnEnable(reg), id)
  {
  }
}

=== FILE: hex_coords.dfy ===
/** Axial hex coordinates: equality, component-wise + and -, the six
    neighbour directions and the hex distance. */
module HexCoords {
  import HexMetrics
  import opened Ints

  datatype Hex = Hex(q: int, r: int)

  /** Coordinate equality: both components match. */
  function Equals(a: Hex, b: Hex): (e: bool)
    ensures e <==> a == b
  {
    a.q == b.q && a.r == b.r
  }

  function Add(a: Hex, b: Hex): Hex
  {
    Hex(a.q + b.q, a.r + b.r)
  }

  function Sub(a: Hex, b: Hex): Hex
  {
    Hex(a.q - b.q, a.r - b.r)
  }

  /** Subtraction undoes addition. */
  lemma AddSubCancel(a: Hex, b: Hex)
    ensures Sub(Add(a, b), b) == a
    ensures Add(Sub(a, b), b) == a
  {
  }

  /** The direction table, in the fixed order the neighbour search uses. */
  const Directions: seq<Hex> :=
    [Hex(1, 0), Hex(1, -1), Hex(0, -1), Hex(-1, 0), Hex(-1, 1), Hex(0, 1)]

  /** The neighbour in direction dir, taken modulo 6. A negative dir is not
      accepted: the source's remainder keeps the sign and indexes out of range. */
  function Neighbor(h: Hex, dir: int): (n: Hex)
    requires 0 <= dir
    ensures Sub(n, h) == Directions[dir % 6]
  {
    var d := Directions[dir % 6];
    Hex(h.q + d.q, h.r + d.r)
  }

  /** Within 0..5 the direction index needs no reduction. */
  lemma NeighborInRange(h: Hex, dir: int)
    requires 0 <= dir < 6
    ensures Neighbor(h, dir) == Add(h, Directions[dir])
  {
  }

  /** b is one of the six neighbours of a: the offset is a unit step along
      one of the three hex axes. */
  predicate Adjacent(a: Hex, b: Hex)
  {
    var dq, dr := b.q - a.q, b.r - a.r;
    (dr == 0 && (dq == 1 || dq == -1)) || (dq == 0 && (dr == 1 || dr == -1)) || (dq + dr == 0 && (dq == 1 || dq == -1))
  }

  /** The arithmetic adjacency agrees with the direction table. */
  lemma AdjacentIffDirection(a: Hex, b: Hex)
    ensures Adjacent(a, b) <==> Sub(b, a) in Directions
  {
  }

  lemma NeighborIsAdjacent(h: Hex, dir: int)
    requires 0 <= dir
    ensures Adjacent(h, Neighbor(h, dir))
  {
  }

  /** Every adjacent hex is reached by one of the six directions. */
  lemma AdjacentHasDirection(a: Hex, b: Hex)
    requires Adjacent(a, b)
    ensures exists d :: 0 <= d < 6 && Neighbor(a, d) == b
  {
    AdjacentIffDirection(a, b);
    var k :| 0 <= k < 6 && Directions[k] == Sub(b, a);
    assert Neighbor(a, k) == b;
  }

  /** Adjacency is symmetric: the direction table is closed under negation. */
  lemma AdjacentSymmetric(a: Hex, b: Hex)
    ensures Adjacent(a, b) <==> Adjacent(b, a)
  {
  }

  /** Stepping in direction d and then in the opposite direction (d + 3) mod 6
      returns to the start. */
  lemma NeighborOpposite(h: Hex, d: int)
    requires 0 <= d
    ensures Neighbor(Neighbor(h, d), (d + 3) % 6) == h
  {
  }

  /** The six neighbours are pairwise distinct. */
  lemma NeighborsDistinct(h: Hex, d1: int, d2: int)
    requires 0 <= d1 < 6 && 0 <= d2 < 6 && d1 != d2
    ensures Neighbor(h, d1) != Neighbor(h, d2)
  {
  }

  /** Hex distance: the largest absolute cube-coordinate difference. */
  function Distance(a: Hex, b: Hex): (d: nat)
    ensures d == 0 <==> a == b
  {
    var ac := HexMetrics.AxialToCube(a.q, a.r);
    var bc := HexMetrics.AxialToCube(b.q, b.r);
    Max(Abs(ac.x - bc.x), Max(Abs(ac.y - bc.y), Abs(ac.z - bc.z)))
  }

  /** The axial form of the distance: max(|dq|, |dr|, |dq + dr|). */
  lemma DistanceAxial(a: Hex, b: Hex)
    ensures Distance(a, b) == Max(Abs(a.q - b.q), Max(Abs(a.r - b.r), Abs((a.q - b.q) + (a.r - b.r))))
  {
  }

  /** Every neighbour lies at distance one. */
  lemma DistanceNeighbor(h: Hex, dir: int)
    requires 0 <= dir
    ensures Distance(h, Neighbor(h, dir)) == 1
  {
  }

  lemma DistanceSymmetric(a: Hex, b: Hex)
    ensures Distance(a, b) == Distance(b, a)
  {
  }

  lemma DistanceTriangle(a: Hex, b: Hex, c: Hex)
    ensures Distance(a, c) <= Distance(a, b) + Distance(b, c)
  {
  }

  /** Distance is invariant under translation by the same offset. */
  lemma DistanceTranslate(a: Hex, b: Hex, t: Hex)
    ensures Distance(Add(a, t), Add(b, t)) == Distance(a, b)
  {
  }
}

=== FILE: hex_metrics.dfy ===
/** The integer part of the hex metrics: axial <-> cube conversion and the
    sum-zero repair step of cube rounding. The float geometry (world
    positions, the roundings themselves) is not part of this model. */
module HexMetrics {

  /** Cube coordinates (x, y, z); a valid hex has x + y + z == 0. */
  datatype Cube = Cube(x: int, y: int, z: int)

  /** Axial coordinates as the pair the conversion returns. */
  datatype Axial = Axial(q: int, r: int)

  predicate OnPlane(c: Cube)
  {
    c.x + c.y + c.z == 0
  }

  /** Axial (q, r) to cube: x is q, z is r, and y closes the sum to zero. */
  function AxialToCube(q: int, r: int): (c: Cube)
    ensures c.x == q && c.z == r
    ensures OnPlane(c)
  {
    Cube(q, -q - r, r)
  }

  /** Cube to axial keeps x and z and drops the redundant y. */
  function CubeToAxial(c: Cube): (a: Axial)
    ensures a.q == c.x && a.r == c.z
  {
    Axial(c.x, c.z)
  }

  /** Converting to cube and back is the identity on axial coordinates. */
  lemma AxialCubeRoundTrip(q: int, r: int)
    ensures CubeToAxial(AxialToCube(q, r)) == Axial(q, r)
  {
  }

  /** On the x + y + z == 0 plane, cube -> axial -> cube is the identity too,
      so the two conversions are inverse bijections. */
  lemma CubeAxialRoundTrip(c: Cube)
    requires OnPlane(c)
    ensures AxialToCube(CubeToAxial(c).q, CubeToAxial(c).r) == c
  {
  }

  /** The repair step of CubeRound: given the three rounded components and the
      three rounding errors (|rounded - exact|, computed in floating point by
      the caller), recompute the component with the largest error from the
      other two. */
  function CubeRoundFixUp(rx: int, ry: int, rz: int, xDiff: real, yDiff: real, zDiff: real): (c: Cube)
    ensures OnPlane(c)
    // at most one component differs from its rounding ...
    ensures (c.y == ry && c.z == rz) || (c.x == rx && c.z == rz) || (c.x == rx && c.y == ry)
    // ... and a component is recomputed only when its error is the largest
    ensures c.x != rx ==> xDiff >= yDiff && xDiff >= zDiff
    ensures c.y != ry ==> yDiff >= xDiff && yDiff >= zDiff
    ensures c.z != rz ==> zDiff >= xDiff && zDiff >= yDiff
  {
    if xDiff > yDiff && xDiff > zDiff then Cube(-ry - rz, ry, rz)
    else if yDiff > zDiff then Cube(rx, -rx - rz, rz)
    else Cube(rx, ry, -rx - ry)
  }

  /** Roundings that already lie on the plane are left as they are, whatever
      the errors. */
  lemma FixUpKeepsValidCube(rx: int, ry: int, rz: int, xDiff: real, yDiff: real, zDiff: real)
    requires rx + ry + rz == 0
    ensures CubeRoundFixUp(rx, ry, rz, xDiff, yDiff, zDiff) == Cube(rx, ry, rz)
  {
  }
}

=== FILE: hex_pathfinder.dfy ===
/** Breadth-first search over the six axial neighbours. A tile is walkable
    when it exists, has a terrain, and that terrain is not the profile's water. */
module HexPathfinder {
  import opened Wrappers
  import opened HexCoords
  import opened HexTile

  /** Missing tiles, tiles without terrain and water tiles are unwalkable;
      everything else is walkable. */
  predicate IsWalkable(t: Option<Tile>, profile: Option<Profile>)
  {
    if t.None? || t.value.terrain.None? then false
    else if profile.Some? && profile.value.water.Some? && t.value.terrain.value == profile.value.water.value then false
    else true
  }

  /** The coordinates whose indexed tile is walkable. Walkable tiles are
      indexed tiles, so this set is finite. */
  function WalkableSet(idx: TileIndex, profile: Option<Profile>): (w: set<Hex>)
    ensures forall c :: c in w <==> IsWalkable(IndexedTile(idx, c), profile)
  {
    set c | c in idx.byKey.Keys + idx.byStruct.Keys && IsWalkable(IndexedTile(idx, c), profile)
  }

  /** w is exactly the set of walkable coordinates of the index. */
  ghost predicate WalkableOn(w: set<Hex>, idx: TileIndex, profile: Option<Profile>)
  {
    forall c {:trigger IsWalkable(IndexedTile(idx, c), profile)} :: c in w <==> IsWalkable(IndexedTile(idx, c), profile)
  }

  /** A walk: consecutive elements are neighbours and every element after the
      first lies on a walkable tile (the starting tile itself need not). */
  ghost predicate IsWalk(w: set<Hex>, p: seq<Hex>)
  {
    && |p| > 0
    && (forall i :: 0 < i < |p| ==> p[i] in w)
    && (forall i :: 0 < i < |p| ==> Adjacent(p[i - 1], p[i]))
  }

  /** A walk from start to goal. */
  ghost predicate Connects(w: set<Hex>, start: Hex, goal: Hex, p: seq<Hex>)
  {
    IsWalk(w, p) && p[0] == start && p[|p| - 1] == goal
  }

  /** Some neighbour of u lies in s. */
  ghost predicate TouchesSet(u: Hex, s: set<Hex>)
  {
    || Hex(u.q + 1, u.r) in s || Hex(u.q + 1, u.r - 1) in s || Hex(u.q, u.r - 1) in s
    || Hex(u.q - 1, u.r) in s || Hex(u.q - 1, u.r + 1) in s || Hex(u.q, u.r + 1) in s
  }

  /** The walkable neighbours of a set of coordinates. */
  ghost function Next(w: set<Hex>, s: set<Hex>): set<Hex>
  {
    set u | u in w && TouchesSet(u, s)
  }

  /** A walkable coordinate adjacent to a member of s is in Next(w, s). */
  lemma AdjacentInNext(w: set<Hex>, s: set<Hex>, v: Hex, u: Hex)
    requires v in s && u in w && Adjacent(v, u)
    ensures u in Next(w, s)
  {
    assert TouchesSet(u, s);
  }

  /** Every member of Next(w, s) has a neighbour in s. */
  lemma NextHasParent(w: set<Hex>, s: set<Hex>, u: Hex) returns (v: Hex)
    requires u in Next(w, s)
    ensures v in s && Adjacent(v, u)
  {
    if Hex(u.q + 1, u.r) in s { v := Hex(u.q + 1, u.r); }
    else if Hex(u.q + 1, u.r - 1) in s { v := Hex(u.q + 1, u.r - 1); }
    else if Hex(u.q, u.r - 1) in s { v := Hex(u.q, u.r - 1); }
    else if Hex(u.q - 1, u.r) in s { v := Hex(u.q - 1, u.r); }
    else if Hex(u.q - 1, u.r + 1) in s { v := Hex(u.q - 1, u.r + 1); }
    else { v := Hex(u.q, u.r + 1); }
  }

  /** The coordinates reachable from start in at most n steps. */
  ghost function Reach(w: set<Hex>, start: Hex, n: nat): set<Hex>
  {
    if n == 0 then {start}
    else Reach(w, start, n - 1) + Next(w, Reach(w, start, n - 1))
  }

  /** Every walkable neighbour of v has been discovered. */
  ghost predicate Expanded(w: set<Hex>, visited: set<Hex>, v: Hex)
  {
    forall u {:trigger Adjacent(v, u)} :: u in w && Adjacent(v, u) ==> u in visited
  }

  lemma {:induction false} ReachMono(w: set<Hex>, start: Hex, a: nat, b: nat)
    requires a <= b
    ensures Reach(w, start, a) <= Reach(w, start, b)
  {
    if a < b {
      ReachMono(w, start, a, b - 1);
    }
  }

  /** A walk of |p| elements from start ends inside Reach(|p| - 1). */
  lemma {:induction false} WalkReaches(w: set<Hex>, start: Hex, p: seq<Hex>)
    requires IsWalk(w, p) && p[0] == start
    ensures p[|p| - 1] in Reach(w, start, |p| - 1)
  {
    if |p| > 1 {
      var q := p[..|p| - 1];
      assert IsWalk(w, q);
      WalkReaches(w, start, q);
      var v := q[|q| - 1];
      AdjacentInNext(w, Reach(w, start, |p| - 2), v, p[|p| - 1]);
    }
  }

  /** A set containing start whose elements are all expanded contains every
      reachable coordinate. */
  lemma {:induction false} ClosedContainsReach(w: set<Hex>, start: Hex, s: set<Hex>, n: nat)
    requires start in s
    requires forall v :: v in s ==> Expanded(w, s, v)
    ensures Reach(w, start, n) <= s
  {
    if n > 0 {
      ClosedContainsReach(w, start, s, n - 1);
      forall x | x in Next(w, Reach(w, start, n - 1))
        ensures x in s
      {
        var v := NextHasParent(w, Reach(w, start, n - 1), x);
        assert Expanded(w, s, v);
      }
    }
  }

  /** Trying the six directions in turn expands a coordinate. */
  lemma ExpandedByDirections(w: set<Hex>, visited: set<Hex>, v: Hex)
    requires forall e :: 0 <= e < 6 ==> (Add(v, Directions[e]) in w ==> Add(v, Directions[e]) in visited)
    ensures Expanded(w, visited, v)
  {
    forall u | u in w && Adjacent(v, u)
      ensures u in visited
    {
      AdjacentIffDirection(v, u);
      var e :| 0 <= e < 6 && Directions[e] == Sub(u, v);
      assert Add(v, Directions[e]) == u;
    }
  }

  /** Once every coordinate at level k has been expanded (the queue holds only
      level k + 1), every coordinate reachable in k + 1 steps has been discovered. */
  lemma AdvanceLevel(w: set<Hex>, start: Hex, visited: set<Hex>, dist: map<Hex, nat>, queue: seq<Hex>, k: nat)
    requires Reach(w, start, k) <= visited
    requires Levels(w, start, visited, dist)
    requires forall i :: 0 <= i < |queue| ==> queue[i] in visited && dist[queue[i]] > k
    requires forall v :: v in visited && v !in queue ==> Expanded(w, visited, v)
    ensures Reach(w, start, k + 1) <= visited
  {
    var r := Reach(w, start, k);
    assert Reach(w, start, k + 1) == r + Next(w, r);
    forall x | x in Next(w, r)
      ensures x in visited
    {
      var v := NextHasParent(w, r, x);
      assert v in visited;
      assert ExactLevel(w, start, v, dist[v]);
      LevelAtMost(w, start, v, dist[v], k);
      assert v !in queue;
      assert Expanded(w, visited, v);
    }
  }

  /** v is reachable in m steps but not in fewer. */
  ghost predicate ExactLevel(w: set<Hex>, start: Hex, v: Hex, m: nat)
  {
    v in Reach(w, start, m) && (m > 0 ==> v !in Reach(w, start, m - 1))
  }

  /** A coordinate first reached at level m that is already reachable within
      k steps has m <= k. */
  lemma LevelAtMost(w: set<Hex>, start: Hex, v: Hex, m: nat, k: nat)
    requires v in Reach(w, start, k)
    requires m > 0 ==> v !in Reach(w, start, m - 1)
    ensures m <= k
  {
    if m > k {
      ReachMono(w, start, k, m - 1);
    }
  }

  /** Every discovered coordinate carries its exact breadth-first level. */
  ghost predicate Levels(w: set<Hex>, start: Hex, visited: set<Hex>, dist: map<Hex, nat>)
  {
    && dist.Keys == visited
    && (forall v {:trigger ExactLevel(w, start, v, dist[v])} :: v in visited ==> ExactLevel(w, start, v, dist[v]))
  }

  /** Every discovered coordinate other than start has a parent link to an
      adjacent discovered coordinate one level lower. */
  ghost predicate Parents(start: Hex, visited: set<Hex>, cameFrom: map<Hex, Hex>, dist: map<Hex, nat>)
  {
    && start in visited && dist.Keys == visited && dist[start] == 0
    && cameFrom.Keys == visited - {start}
    && (forall n {:trigger cameFrom[n]} :: n in cameFrom ==>
          cameFrom[n] in visited && Adjacent(cameFrom[n], n) && dist[n] == dist[cameFrom[n]] + 1)
  }

  /** The search bookkeeping: discovered coordinates are start or walkable,
      and carry exact levels and parent links. */
  ghost predicate Discovered(w: set<Hex>, start: Hex, visited: set<Hex>, cameFrom: map<Hex, Hex>, dist: map<Hex, nat>)
  {
    visited <= w + {start} && Levels(w, start, visited, dist) && Parents(start, visited, cameFrom, dist)
  }

  /** The queue holds distinct discovered coordinates in non-decreasing level order. */
  ghost predicate QueueOrdered(visited: set<Hex>, dist: map<Hex, nat>, queue: seq<Hex>)
    requires dist.Keys == visited
  {
    && (forall i :: 0 <= i < |queue| ==> queue[i] in visited)
    && (forall i, j :: 0 <= i < j < |queue| ==> queue[i] != queue[j])
    && (forall i, j :: 0 <= i <= j < |queue| ==> dist[queue[i]] <= dist[queue[j]])
  }

  /** A coordinate adjacent to a level-k coordinate and not yet discovered
      (while all of level k is discovered) is exactly at level k + 1. */
  lemma NewIsNextLevel(w: set<Hex>, start: Hex, visited: set<Hex>, k: nat, cur: Hex, n: Hex)
    requires ExactLevel(w, start, cur, k) && Reach(w, start, k) <= visited
    requires n in w && n !in visited && Adjacent(cur, n)
    ensures ExactLevel(w, start, n, k + 1)
  {
    AdjacentInNext(w, Reach(w, start, k), cur, n);
  }

  /** Adding a coordinate with its exact level keeps every level exact. */
  lemma LevelsExtend(w: set<Hex>, start: Hex, visited: set<Hex>, dist: map<Hex, nat>, n: Hex, m: nat)
    requires Levels(w, start, visited, dist)
    requires n !in visited && ExactLevel(w, start, n, m)
    ensures Levels(w, start, visited + {n}, dist[n := m])
  {
    var dist' := dist[n := m];
    forall v | v in visited + {n}
      ensures ExactLevel(w, start, v, dist'[v])
    {
      if v != n {
        assert dist'[v] == dist[v];
      }
    }
  }

  /** Discovering such a coordinate at level k + 1 keeps every level exact. */
  lemma DiscoverLevel(w: set<Hex>, start: Hex, visited: set<Hex>, dist: map<Hex, nat>, cur: Hex, n: Hex)
    requires Levels(w, start, visited, dist)
    requires cur in visited && Reach(w, start, dist[cur]) <= visited
    requires n in w && n !in visited && Adjacent(cur, n)
    ensures Levels(w, start, visited + {n}, dist[n := dist[cur] + 1])
  {
    assert ExactLevel(w, start, cur, dist[cur]);
    NewIsNextLevel(w, start, visited, dist[cur], cur, n);
    LevelsExtend(w, start, visited, dist, n, dist[cur] + 1);
  }

  /** Recording cur as the parent of a new coordinate n keeps every parent link valid. */
  lemma DiscoverParent(start: Hex, visited: set<Hex>, cameFrom: map<Hex, Hex>, dist: map<Hex, nat>, cur: Hex, n: Hex)
    requires Parents(start, visited, cameFrom, dist)
    requires cur in visited && n !in visited && Adjacent(cur, n)
    ensures Parents(start, visited + {n}, cameFrom[n := cur], dist[n := dist[cur] + 1])
  {
    var cameFrom', dist' := cameFrom[n := cur], dist[n := dist[cur] + 1];
    forall m | m in cameFrom'
      ensures cameFrom'[m] in visited + {n} && Adjacent(cameFrom'[m], m) && dist'[m] == dist'[cameFrom'[m]] + 1
    {
      if m != n {
        assert cameFrom'[m] == cameFrom[m];
        assert dist'[m] == dist[m];
        assert cameFrom[m] != n;
      }
    }
  }

  lemma ExpandedGrows(w: set<Hex>, visited: set<Hex>, v: Hex, n: Hex)
    requires Expanded(w, visited, v)
    ensures Expanded(w, visited + {n}, v)
  {
  }

  /** Appending a new coordinate whose level is at least every queued level
      keeps the queue ordered. */
  lemma QueueAppend(visited: set<Hex>, dist: map<Hex, nat>, queue: seq<Hex>, n: Hex, m: nat)
    requires dist.Keys == visited && QueueOrdered(visited, dist, queue)
    requires n !in visited
    requires forall i :: 0 <= i < |queue| ==> dist[queue[i]] <= m
    ensures QueueOrdered(visited + {n}, dist[n := m], queue + [n])
  {
    var dist', queue' := dist[n := m], queue + [n];
    forall i | 0 <= i < |queue|
      ensures queue'[i] == queue[i] && dist'[queue'[i]] == dist[queue[i]]
    {
      assert queue[i] != n;
    }
  }

  /** The state while the neighbours of cur (at level k) are being tried:
      everything but cur and the queue is expanded, and the queue spans
      levels k and k + 1. */
  ghost predicate Expanding(w: set<Hex>, start: Hex, cur: Hex, k: nat,
                            visited: set<Hex>, cameFrom: map<Hex, Hex>, dist: map<Hex, nat>, queue: seq<Hex>)
  {
    && Discovered(w, start, visited, cameFrom, dist)
    && QueueOrdered(visited, dist, queue)
    && cur in visited && cur !in queue && dist[cur] == k
    && Reach(w, start, k) <= visited
    && (forall i :: 0 <= i < |queue| ==> k <= dist[queue[i]] <= k + 1)
    && (forall v :: v in visited && v != cur && v !in queue ==> Expanded(w, visited, v))
  }

  /** Discovering one walkable neighbour of cur and enqueuing it keeps the
      state, and moves one coordinate from the unvisited set to the queue. */
  lemma DiscoverStep(w: set<Hex>, start: Hex, cur: Hex, k: nat,
                     visited: set<Hex>, cameFrom: map<Hex, Hex>, dist: map<Hex, nat>, queue: seq<Hex>, n: Hex)
    requires Expanding(w, start, cur, k, visited, cameFrom, dist, queue)
    requires n in w && n !in visited && Adjacent(cur, n)
    ensures Expanding(w, start, cur, k, visited + {n}, cameFrom[n := cur], dist[n := k + 1], queue + [n])
    ensures |w - (visited + {n})| + |queue + [n]| == |w - visited| + |queue|
  {
    var visited', dist', queue' := visited + {n}, dist[n := k + 1], queue + [n];
    DiscoverLevel(w, start, visited, dist, cur, n);
    DiscoverParent(start, visited, cameFrom, dist, cur, n);
    QueueAppend(visited, dist, queue, n, k + 1);
    forall v | v in visited' && v != cur && v !in queue'
      ensures Expanded(w, visited', v)
    {
      assert v in visited && v !in queue;
      ExpandedGrows(w, visited, v, n);
    }
    assert w - visited' == (w - visited) - {n};
  }

  /** One pass of the direction loop: discovers the walkable, not yet visited
      neighbours of cur in direction order, records cur as their parent and
      enqueues them. */
  method ExpandNeighbors(ghost w: set<Hex>, ghost start: Hex, idx: TileIndex, profile: Option<Profile>,
                         cur: Hex, visited: set<Hex>, cameFrom: map<Hex, Hex>, queue: seq<Hex>, ghost dist: map<Hex, nat>)
    returns (visited': set<Hex>, cameFrom': map<Hex, Hex>, queue': seq<Hex>, ghost dist': map<Hex, nat>)
    requires WalkableOn(w, idx, profile)
    requires cur in dist && Expanding(w, start, cur, dist[cur], visited, cameFrom, dist, queue)
    ensures Expanding(w, start, cur, dist[cur], visited', cameFrom', dist', queue')
    ensures Expanded(w, visited', cur)
    ensures |w - visited'| + |queue'| == |w - visited| + |queue|
  {
    ghost var k := dist[cur];
    visited', cameFrom', queue', dist' := visited, cameFrom, queue, dist;
    var d := 0;
    while d < 6
      invariant 0 <= d <= 6
      invariant Expanding(w, start, cur, k, visited', cameFrom', dist', queue')
      invariant forall e :: 0 <= e < d ==> (Add(cur, Directions[e]) in w ==> Add(cur, Directions[e]) in visited')
      invariant |w - visited'| + |queue'| == |w - visited| + |queue|
    {
      var n := Neighbor(cur, d);
      NeighborInRange(cur, d);
      var ntile := IndexedTile(idx, n);
      if IsWalkable(ntile, profile) && n !in visited' {
        NeighborIsAdjacent(cur, d);
        DiscoverStep(w, start, cur, k, visited', cameFrom', dist', queue', n);
        visited' := visited' + {n};
        cameFrom' := cameFrom'[n := cur];
        dist' := dist'[n := k + 1];
        queue' := queue' + [n];
      }
      d := d + 1;
    }
    ExpandedByDirections(w, visited', cur);
  }

  /** Follows the parent links from goal back to start. */
  method Reconstruct(ghost w: set<Hex>, start: Hex, goal: Hex, visited: set<Hex>, cameFrom: map<Hex, Hex>, ghost dist: map<Hex, nat>)
    returns (path: seq<Hex>)
    requires Discovered(w, start, visited, cameFrom, dist)
    requires goal in cameFrom
    ensures Connects(w, start, goal, path)
    ensures |path| == dist[goal] + 1
  {
    // The source appends and then reverses; prepending builds the same sequence.
    var cur2 := goal;
    path := [];
    while !Equals(cur2, start)
      invariant cur2 in visited
      invariant |path| + dist[cur2] == dist[goal]
      invariant |path| == 0 ==> cur2 == goal
      invariant |path| > 0 ==> path[0] in cameFrom && cameFrom[path[0]] == cur2 && path[|path| - 1] == goal
      invariant forall i :: 0 <= i < |path| ==> path[i] in cameFrom
      invariant forall i :: 0 < i < |path| ==> Adjacent(path[i - 1], path[i])
      decreases dist[cur2]
    {
      path := [cur2] + path;
      cur2 := cameFrom[cur2];
    }
    path := [start] + path;
  }

  /** The outer loop's state: the queue spans at most two consecutive levels,
      every level up to the head's is fully discovered, and every discovered
      coordinate that has left the queue is expanded. */
  ghost predicate Frontier(w: set<Hex>, start: Hex, visited: set<Hex>, cameFrom: map<Hex, Hex>, dist: map<Hex, nat>, queue: seq<Hex>)
  {
    && Discovered(w, start, visited, cameFrom, dist)
    && QueueOrdered(visited, dist, queue)
    && (|queue| > 0 ==> dist[queue[|queue| - 1]] <= dist[queue[0]] + 1)
    && (|queue| > 0 ==> Reach(w, start, dist[queue[0]]) <= visited)
    && (forall v :: v in visited && v !in queue ==> Expanded(w, visited, v))
  }

  /** Taking the head off the queue starts the expansion of its neighbours. */
  lemma Dequeue(w: set<Hex>, start: Hex, visited: set<Hex>, cameFrom: map<Hex, Hex>, dist: map<Hex, nat>, queue: seq<Hex>)
    requires Frontier(w, start, visited, cameFrom, dist, queue) && |queue| > 0
    ensures Expanding(w, start, queue[0], dist[queue[0]], visited, cameFrom, dist, queue[1..])
  {
    var cur, rest, k := queue[0], queue[1..], dist[queue[0]];
    forall i | 0 <= i < |rest|
      ensures rest[i] == queue[i + 1] && rest[i] != cur && k <= dist[rest[i]] <= k + 1
    {
    }
  }

  /** Once cur is expanded, the level of the new queue head is fully discovered. */
  lemma ResumeReach(w: set<Hex>, start: Hex, cur: Hex, k: nat,
                    visited: set<Hex>, cameFrom: map<Hex, Hex>, dist: map<Hex, nat>, queue: seq<Hex>)
    requires Expanding(w, start, cur, k, visited, cameFrom, dist, queue)
    requires Expanded(w, visited, cur) && |queue| > 0
    ensures Reach(w, start, dist[queue[0]]) <= visited
  {
    if dist[queue[0]] == k + 1 {
      AdvanceLevel(w, start, visited, dist, queue, k);
    } else {
      assert dist[queue[0]] == k;
    }
  }

  /** Once cur is expanded, the outer loop's state holds again. */
  lemma ResumeFrontier(w: set<Hex>, start: Hex, cur: Hex, k: nat,
                       visited: set<Hex>, cameFrom: map<Hex, Hex>, dist: map<Hex, nat>, queue: seq<Hex>)
    requires Expanding(w, start, cur, k, visited, cameFrom, dist, queue)
    requires Expanded(w, visited, cur)
    ensures Frontier(w, start, visited, cameFrom, dist, queue)
  {
    if |queue| > 0 {
      ResumeReach(w, start, cur, k, visited, cameFrom, dist, queue);
      assert k <= dist[queue[0]] && dist[queue[|queue| - 1]] <= k + 1;
    }
  }

  /** Dequeues the head and expands it. */
  method Visit(ghost w: set<Hex>, ghost start: Hex, idx: TileIndex, profile: Option<Profile>,
               visited: set<Hex>, cameFrom: map<Hex, Hex>, queue: seq<Hex>, ghost dist: map<Hex, nat>)
    returns (visited': set<Hex>, cameFrom': map<Hex, Hex>, queue': seq<Hex>, ghost dist': map<Hex, nat>)
    requires WalkableOn(w, idx, profile)
    requires Frontier(w, start, visited, cameFrom, dist, queue) && |queue| > 0
    ensures Frontier(w, start, visited', cameFrom', dist', queue')
    ensures |w - visited'| + |queue'| < |w - visited| + |queue|
  {
    var cur := queue[0];
    ghost var k := dist[cur];
    Dequeue(w, start, visited, cameFrom, dist, queue);
    visited', cameFrom', queue', dist' := ExpandNeighbors(w, start, idx, profile, cur, visited, cameFrom, queue[1..], dist);
    ResumeFrontier(w, start, cur, k, visited', cameFrom', dist', queue');
  }

  /** When the search stops with an empty queue and the goal undiscovered,
      no walk reaches the goal. */
  lemma NoWalkToUndiscovered(w: set<Hex>, start: Hex, goal: Hex, visited: set<Hex>)
    requires start in visited && goal !in visited
    requires forall v :: v in visited ==> Expanded(w, visited, v)
    ensures forall p :: !Connects(w, start, goal, p)
  {
    forall p | Connects(w, start, goal, p)
      ensures false
    {
      WalkReaches(w, start, p);
      ClosedContainsReach(w, start, visited, |p| - 1);
    }
  }

  /** No walk to a discovered coordinate is shorter than its level. */
  lemma NoShorterWalk(w: set<Hex>, start: Hex, goal: Hex, visited: set<Hex>, dist: map<Hex, nat>)
    requires Levels(w, start, visited, dist) && goal in visited
    ensures forall p :: Connects(w, start, goal, p) ==> dist[goal] + 1 <= |p|
  {
    forall p | Connects(w, start, goal, p)
      ensures dist[goal] + 1 <= |p|
    {
      WalkReaches(w, start, p);
      assert ExactLevel(w, start, goal, dist[goal]);
      LevelAtMost(w, start, goal, dist[goal], |p| - 1);
    }
  }

  /** The shortest walk from start to goal through walkable tiles, or the empty
      sequence when the goal cannot be reached. The search ends on every finite
      tile index: each walkable coordinate is enqueued at most once. */
  method FindPath(start: Hex, goal: Hex, idx: TileIndex, profile: Option<Profile>) returns (path: seq<Hex>)
    ensures start == goal ==> path == [start]
    ensures |path| > 0 ==> Connects(WalkableSet(idx, profile), start, goal, path)
    ensures (exists p :: Connects(WalkableSet(idx, profile), start, goal, p)) ==> |path| > 0
    ensures forall p :: Connects(WalkableSet(idx, profile), start, goal, p) ==> |path| <= |p|
  {
    if Equals(start, goal) {
      return [start];
    }
    ghost var w := WalkableSet(idx, profile);
    assert WalkableOn(w, idx, profile);
    path := Search(w, start, goal, idx, profile);
  }

  /** The breadth-first search proper, over the walkable set w. */
  method Search(ghost w: set<Hex>, start: Hex, goal: Hex, idx: TileIndex, profile: Option<Profile>) returns (path: seq<Hex>)
    requires WalkableOn(w, idx, profile) && start != goal
    ensures |path| > 0 ==> Connects(w, start, goal, path)
    ensures (exists p :: Connects(w, start, goal, p)) ==> |path| > 0
    ensures forall p :: Connects(w, start, goal, p) ==> |path| <= |p|
  {
    var queue := [start];
    var visited := {start};
    var cameFrom: map<Hex, Hex> := map[];
    // breadth-first level of every discovered coordinate
    ghost var dist: map<Hex, nat> := map[start := 0];
    assert Reach(w, start, 0) == {start};
    assert ExactLevel(w, start, start, 0);

    while |queue| > 0 && !Equals(queue[0], goal)
      invariant Frontier(w, start, visited, cameFrom, dist, queue)
      decreases |w - visited| + |queue|
    {
      visited, cameFrom, queue, dist := Visit(w, start, idx, profile, visited, cameFrom, queue, dist);
    }

    if goal !in cameFrom {
      // The search ran out of coordinates without discovering the goal.
      NoWalkToUndiscovered(w, start, goal, visited);
      return [];
    }
    path := Reconstruct(w, start, goal, visited, cameFrom, dist);
    NoShorterWalk(w, start, goal, visited, dist);
  }
}

=== FILE: hex_tile.dfy ===
/** Terrain assets, the map generation profile's terrain slots, map tiles and
    the generator's two coordinate indexes that every tile lookup consults. */
module HexTile {
  import opened Wrappers
  import opened HexCoords

  /** A terrain asset. `asset` is the asset's identity: two terrains are the
      same object exactly when they are equal as values. String fields are
      never null (the serializer stores missing strings as ""). */
  datatype Terrain = Terrain(asset: nat, id: string, name: string, displayName: string, buildable: bool)

  /** The terrain slots of the map generation profile, each possibly unset. */
  datatype Profile = Profile(grass: Option<Terrain>, forest: Option<Terrain>, stone: Option<Terrain>, water: Option<Terrain>)

  /** A map tile; `occupant` is the identity of the building instance standing on it. */
  datatype Tile = Tile(tileId: nat, coords: Hex, terrain: Option<Terrain>, occupant: Option<nat>)

  /** A tile as created by the generator: nothing stands on it yet. */
  function NewTile(tileId: nat, coords: Hex, terrain: Option<Terrain>): (t: Tile)
    ensures !IsOccupied(t)
    ensures t.coords == coords && t.terrain == terrain
  {
    Tile(tileId, coords, terrain, None)
  }

  /** A tile is occupied exactly when some building instance stands on it. */
  predicate IsOccupied(t: Tile)
  {
    t.occupant.Some?
  }

  /** Sets the terrain (possibly to none); the material swap is visual only. */
  function ApplyTerrain(t: Tile, terr: Option<Terrain>): (r: Tile)
    ensures r.terrain == terr
    ensures r.tileId == t.tileId && r.coords == t.coords && r.occupant == t.occupant
    ensures IsOccupied(r) <==> IsOccupied(t)
  {
    t.(terrain := terr)
  }

  /** The generator's two indexes: by the string key "q,r" (modelled as keyed
      by the coordinate itself, since that key is injective) and by the
      coordinate struct. An entry may hold a destroyed (null) tile. */
  datatype TileIndex = TileIndex(byKey: map<Hex, Option<Tile>>, byStruct: map<Hex, Option<Tile>>)

  /** Tile lookup as the pathfinder and the workers do it: the key index
      first, then the struct index, else nothing. */
  function IndexedTile(idx: TileIndex, c: Hex): (t: Option<Tile>)
    ensures c in idx.byKey ==> t == idx.byKey[c]
    ensures c !in idx.byKey && c in idx.byStruct ==> t == idx.byStruct[c]
    ensures t.Some? ==> c in idx.byKey.Keys + idx.byStruct.Keys
  {
    if c in idx.byKey then idx.byKey[c]
    else if c in idx.byStruct then idx.byStruct[c]
    else None
  }
}

=== FILE: ints.dfy ===
/** Integer helpers shared by the scheduler, the worker and the hex distance:
    the `Mathf.Abs`, `Mathf.Min` and `Mathf.Max` the code calls on ints. */
module Ints {

  function Abs(x: int): nat
  {
    if x < 0 then -x else x
  }

  function Min(a: int, b: int): int
  {
    if a < b then a else b
  }

  function Max(a: int, b: int): int
  {
    if a < b then b else a
  }
}

=== FILE: job_board.dfy ===
/** The job board: a bounded, insertion-ordered list of jobs. Jobs are never
    removed, so a job's index is a stable reference to it. */
module JobBoard {
  import opened Wrappers
  import opened Seqs
  import opened WorkerJob

  /** The inspector default for the cap on the list length. */
  const DefaultMaxJobs: int := 200

  datatype Board = Board(maxJobs: int, jobs: seq<Job>)

  /** A Pending job on the same route (source, destination, resource) absorbs
      a posted job. */
  predicate Mergeable(j: Job, post: Job)
  {
    j.status == Pending && j.source == post.source && j.dest == post.dest && j.resourceId == post.resourceId
  }

  /** Posts a job: merges its amount into the first Pending job on the same
      route; otherwise appends it while the list is below the cap, and drops
      it silently at the cap. Posting nothing changes nothing. */
  function PostOrUpdateJob(b: Board, job: Option<Job>): (b': Board)
    ensures b'.maxJobs == b.maxJobs
    ensures job.None? ==> b' == b
    ensures job.Some? && (exists i :: 0 <= i < |b.jobs| && Mergeable(b.jobs[i], job.value)) ==>
              exists i :: 0 <= i < |b.jobs| && Mergeable(b.jobs[i], job.value)
                && (forall k :: 0 <= k < i ==> !Mergeable(b.jobs[k], job.value))
                && b'.jobs == b.jobs[i := b.jobs[i].(amount := b.jobs[i].amount + job.value.amount)]
    ensures job.Some? && (forall i :: 0 <= i < |b.jobs| ==> !Mergeable(b.jobs[i], job.value)) ==>
              b'.jobs == (if |b.jobs| < b.maxJobs then b.jobs + [job.value] else b.jobs)
    ensures |b'.jobs| > |b.jobs| ==> |b'.jobs| <= b.maxJobs
  {
    if job.None? then b
    else
      var post := job.value;
      match FirstIndex(b.jobs, j => Mergeable(j, post))
      case Some(i) => b.(jobs := b.jobs[i := b.jobs[i].(amount := b.jobs[i].amount + post.amount)])
      case None => if |b.jobs| < b.maxJobs then b.(jobs := b.jobs + [post]) else b
  }

  /** A job the claim may hand out: Pending, and accepted by the filter when
      there is one. */
  predicate Claimable(j: Job, filter: Option<Job -> bool>)
  {
    j.status == Pending && (filter.None? || filter.value(j))
  }

  datatype Claim = Claim(board: Board, job: Option<nat>)

  /** Claims the lowest-index claimable job, flipping only that job to
      Claimed; hands out nothing, and changes nothing, when no job is claimable. */
  function TryClaimJob(b: Board, filter: Option<Job -> bool>): (c: Claim)
    ensures c.job.None? <==> forall i :: 0 <= i < |b.jobs| ==> !Claimable(b.jobs[i], filter)
    ensures c.job.None? ==> c.board == b
    ensures c.job.Some? ==>
              && c.job.value < |b.jobs|
              && Claimable(b.jobs[c.job.value], filter)
              && (forall k :: 0 <= k < c.job.value ==> !Claimable(b.jobs[k], filter))
              && c.board == b.(jobs := b.jobs[c.job.value := b.jobs[c.job.value].(status := Claimed)])
  {
    match FirstIndex(b.jobs, j => Claimable(j, filter))
    case None => Claim(b, None)
    case Some(i) => Claim(b.(jobs := b.jobs[i := b.jobs[i].(status := Claimed)]), Some(i))
  }

  /** What one job adds to the backlog of resource r: its amount while it is
      Pending for r. */
  function Contribution(j: Job, r: string): int
  {
    if j.status == Pending && j.resourceId == r then j.amount else 0
  }

  /** The backlog of a list of jobs, summed from the front. */
  function PendingSum(jobs: seq<Job>, r: string): int
  {
    if |jobs| == 0 then 0 else PendingSum(jobs[..|jobs| - 1], r) + Contribution(jobs[|jobs| - 1], r)
  }

  /** The backlog of resource r: an amount, not a job count. */
  function CountPending(b: Board, r: string): (n: int)
    ensures (forall i :: 0 <= i < |b.jobs| ==> Contribution(b.jobs[i], r) == 0) ==> n == 0
  {
    ZeroContributions(b.jobs, r);
    PendingSum(b.jobs, r)
  }

  lemma {:induction false} ZeroContributions(jobs: seq<Job>, r: string)
    ensures (forall i :: 0 <= i < |jobs| ==> Contribution(jobs[i], r) == 0) ==> PendingSum(jobs, r) == 0
  {
    if |jobs| > 0 {
      ZeroContributions(jobs[..|jobs| - 1], r);
    }
  }

  /** A positive backlog for r means some Pending job for r has a positive amount. */
  lemma {:induction false} PositiveBacklogHasJob(jobs: seq<Job>, r: string)
    requires PendingSum(jobs, r) > 0
    ensures exists i :: 0 <= i < |jobs| && jobs[i].status == Pending && jobs[i].resourceId == r && jobs[i].amount > 0
  {
    var last := jobs[|jobs| - 1];
    if Contribution(last, r) <= 0 {
      PositiveBacklogHasJob(jobs[..|jobs| - 1], r);
      var i :| 0 <= i < |jobs| - 1 && jobs[..|jobs| - 1][i].status == Pending
               && jobs[..|jobs| - 1][i].resourceId == r && jobs[..|jobs| - 1][i].amount > 0;
      assert jobs[i] == jobs[..|jobs| - 1][i];
    }
  }

  /** Replacing one job changes the backlog by the difference of the two
      jobs' contributions. */
  lemma {:induction false} PendingSumUpdate(jobs: seq<Job>, i: nat, j: Job, r: string)
    requires i < |jobs|
    ensures PendingSum(jobs[i := j], r) == PendingSum(jobs, r) - Contribution(jobs[i], r) + Contribution(j, r)
  {
    var n := |jobs|;
    var jobs' := jobs[i := j];
    if i < n - 1 {
      assert jobs'[..n - 1] == jobs[..n - 1][i := j];
      PendingSumUpdate(jobs[..n - 1], i, j, r);
    } else {
      assert jobs'[..n - 1] == jobs[..n - 1];
    }
  }

  /** Appending a job adds its contribution to the backlog. */
  lemma PendingSumAppend(jobs: seq<Job>, j: Job, r: string)
    ensures PendingSum(jobs + [j], r) == PendingSum(jobs, r) + Contribution(j, r)
  {
    assert (jobs + [j])[..|jobs|] == jobs;
  }

  /** Completes a job: its status becomes Done whatever it was before, and the
      job stays on the board. Completing nothing changes nothing. */
  function CompleteJob(b: Board, job: Option<nat>): (b': Board)
    requires job.Some? ==> job.value < |b.jobs|
    ensures job.None? ==> b' == b
    ensures |b'.jobs| == |b.jobs| && b'.maxJobs == b.maxJobs
    ensures job.Some? ==> b'.jobs[job.value].status == Done
    ensures forall i :: 0 <= i < |b.jobs| && (job.None? || i != job.value) ==> b'.jobs[i] == b.jobs[i]
    ensures job.Some? ==> b'.jobs[job.value] == b.jobs[job.value].(status := Done)
  {
    if job.None? then b else b.(jobs := b.jobs[job.value := b.jobs[job.value].(status := Done)])
  }

  /** Invalidates a job: its status becomes Invalid whatever it was before,
      and the job stays on the board. Invalidating nothing changes nothing. */
  function InvalidateJob(b: Board, job: Option<nat>): (b': Board)
    requires job.Some? ==> job.value < |b.jobs|
    ensures job.None? ==> b' == b
    ensures |b'.jobs| == |b.jobs| && b'.maxJobs == b.maxJobs
    ensures job.Some? ==> b'.jobs[job.value].status == Invalid
    ensures forall i :: 0 <= i < |b.jobs| && (job.None? || i != job.value) ==> b'.jobs[i] == b.jobs[i]
    ensures job.Some? ==> b'.jobs[job.value] == b.jobs[job.value].(status := Invalid)
  {
    if job.None? then b else b.(jobs := b.jobs[job.value := b.jobs[job.value].(status := Invalid)])
  }

  /** Completing or invalidating twice is the same as doing it once. */
  lemma TerminalFlipsIdempotent(b: Board, job: Option<nat>)
    requires job.Some? ==> job.value < |b.jobs|
    ensures CompleteJob(CompleteJob(b, job), job) == CompleteJob(b, job)
    ensures InvalidateJob(InvalidateJob(b, job), job) == InvalidateJob(b, job)
  {
  }

  /** The flips are unconditional: the later flip wins, even over a terminal
      status, and even a Done job can become Invalid. */
  lemma LastFlipWins(b: Board, i: nat)
    requires i < |b.jobs|
    ensures InvalidateJob(CompleteJob(b, Some(i)), Some(i)) == InvalidateJob(b, Some(i))
    ensures CompleteJob(InvalidateJob(b, Some(i)), Some(i)) == CompleteJob(b, Some(i))
  {
  }

  /** Posting raises the backlog of the posted resource by the posted amount
      when it merges or is appended as a Pending job, and leaves every other
      backlog unchanged. A merged post counts even if the posted job itself
      was not Pending, because it lands on a Pending job. */
  lemma PostBacklog(b: Board, post: Job, r: string)
    ensures var b' := PostOrUpdateJob(b, Some(post));
      if exists i :: 0 <= i < |b.jobs| && Mergeable(b.jobs[i], post) then
        CountPending(b', r) == CountPending(b, r) + (if r == post.resourceId then post.amount else 0)
      else if |b.jobs| < b.maxJobs then
        CountPending(b', r) == CountPending(b, r) + Contribution(post, r)
      else
        CountPending(b', r) == CountPending(b, r)
  {
    var b' := PostOrUpdateJob(b, Some(post));
    match FirstIndex(b.jobs, j => Mergeable(j, post))
    case Some(i) =>
      PendingSumUpdate(b.jobs, i, b.jobs[i].(amount := b.jobs[i].amount + post.amount), r);
    case None =>
      if |b.jobs| < b.maxJobs {
        PendingSumAppend(b.jobs, post, r);
      }
  }

  /** A successful claim removes the claimed job's amount from its resource's backlog. */
  lemma ClaimBacklog(b: Board, filter: Option<Job -> bool>, r: string)
    ensures var c := TryClaimJob(b, filter);
      c.job.Some? ==> CountPending(c.board, r) == CountPending(b, r) - Contribution(b.jobs[c.job.value], r)
  {
    var c := TryClaimJob(b, filter);
    if c.job.Some? {
      PendingSumUpdate(b.jobs, c.job.value, b.jobs[c.job.value].(status := Claimed), r);
    }
  }

  /** Completing or invalidating a job takes its amount out of the backlog
      exactly when it was still Pending. */
  lemma TerminalFlipBacklog(b: Board, i: nat, r: string)
    requires i < |b.jobs|
    ensures CountPending(CompleteJob(b, Some(i)), r) == CountPending(b, r) - Contribution(b.jobs[i], r)
    ensures CountPending(InvalidateJob(b, Some(i)), r) == CountPending(b, r) - Contribution(b.jobs[i], r)
  {
    PendingSumUpdate(b.jobs, i, b.jobs[i].(status := Done), r);
    PendingSumUpdate(b.jobs, i, b.jobs[i].(status := Invalid), r);
  }

  /** Claimed, Done and Invalid jobs are never merged into and never handed
      out: posting and claiming leave them exactly as they were. */
  lemma NonPendingUntouched(b: Board, post: Option<Job>, filter: Option<Job -> bool>, i: nat)
    requires i < |b.jobs| && b.jobs[i].status != Pending
    ensures PostOrUpdateJob(b, post).jobs[i] == b.jobs[i]
    ensures TryClaimJob(b, filter).board.jobs[i] == b.jobs[i]
    ensures TryClaimJob(b, filter).job != Some(i)
  {
  }
}

=== FILE: producers.dfy ===
/** The three producers. Each tick a lumber camp, quarry or well counts the
    neighbouring tiles whose terrain matches its profile slot (forest, stone,
    water) and adds base + count * per, clamped to 0..maxPerTick, of its
    resource to its output buffer when that amount is positive. */
module Producers {
  import opened Wrappers
  import opened HexTile
  import opened BuildingBehaviour
  import opened Ints

  datatype Kind = LumberCamp | Quarry | Well

  /** The inspector settings of one producer. */
  datatype Producer = Producer(kind: Kind, base: int, per: int, maxPerTick: int)

  /** The inspector defaults: nothing without neighbours, one per matching
      neighbour, capped at 6, 4 and 3. */
  function DefaultProducer(kind: Kind): (p: Producer)
    ensures p.kind == kind && p.base == 0 && p.per == 1
  {
    match kind
    case LumberCamp => Producer(kind, 0, 1, 6)
    case Quarry => Producer(kind, 0, 1, 4)
    case Well => Producer(kind, 0, 1, 3)
  }

  /** The resource id a producer outputs. */
  function OutputId(kind: Kind): string
  {
    match kind
    case LumberCamp => "wood"
    case Quarry => "stone"
    case Well => "water"
  }

  /** The profile slot whose terrain a producer counts. */
  function TargetOf(kind: Kind, profile: Profile): Option<Terrain>
  {
    match kind
    case LumberCamp => profile.forest
    case Quarry => profile.stone
    case Well => profile.water
  }

  /** A terrain matches the slot when the slot is set and the terrain is the
      same asset, or both have the same non-empty id, or the terrain's name
      equals the slot terrain's name or display name. */
  predicate IsMatch(t: Terrain, target: Option<Terrain>)
  {
    target.Some? &&
      (t == target.value
       || (t.id != "" && target.value.id != "" && t.id == target.value.id)
       || t.name == target.value.name
       || t.name == target.value.displayName)
  }

  /** A ring entry that counts: a tile with terrain, and that terrain matches. */
  predicate Counts(o: Option<Tile>, target: Option<Terrain>)
  {
    o.Some? && o.value.terrain.Some? && IsMatch(o.value.terrain.value, target)
  }

  /** How many entries count, scanning the ring in order. */
  function CountMatches(ring: seq<Option<Tile>>, target: Option<Terrain>): (n: int)
    ensures 0 <= n <= |ring|
    ensures target.None? ==> n == 0
    ensures n == |ring| <==> forall i :: 0 <= i < |ring| ==> Counts(ring[i], target)
  {
    if |ring| == 0 then 0
    else
      var prefix := ring[..|ring| - 1];
      assert forall i :: 0 <= i < |prefix| ==> prefix[i] == ring[i];
      CountMatches(prefix, target) + (if Counts(ring[|ring| - 1], target) then 1 else 0)
  }

  /** The directions whose tile counts. */
  function MatchSet(ring: seq<Option<Tile>>, target: Option<Terrain>): set<int>
  {
    set i | 0 <= i < |ring| && Counts(ring[i], target)
  }

  /** The matching directions of a ring are those of all but its last
      entry, plus the last one when it counts. */
  lemma MatchSetSnoc(ring: seq<Option<Tile>>, target: Option<Terrain>)
    requires |ring| > 0
    ensures var n := |ring| - 1;
      MatchSet(ring, target) == MatchSet(ring[..n], target) + (if Counts(ring[n], target) then {n} else {})
  {
    var n := |ring| - 1;
    assert forall i :: 0 <= i < n ==> ring[..n][i] == ring[i];
  }

  /** The count is the number of matching directions. */
  lemma {:induction false} CountIsMatchSetSize(ring: seq<Option<Tile>>, target: Option<Terrain>)
    ensures CountMatches(ring, target) == |MatchSet(ring, target)|
  {
    if |ring| > 0 {
      var n := |ring| - 1;
      CountIsMatchSetSize(ring[..n], target);
      MatchSetSnoc(ring, target);
      assert n !in MatchSet(ring[..n], target);
    }
  }

  /** A tile of the slot's own terrain always counts. */
  lemma SlotTerrainCounts(tile: Tile, target: Terrain)
    requires tile.terrain == Some(target)
    ensures Counts(Some(tile), Some(target))
  {
  }

  /** The integer clamp: below lo gives lo, otherwise above hi gives hi. With
      lo above hi a value above hi still gives hi. */
  function Clamp(v: int, lo: int, hi: int): (r: int)
    ensures lo <= hi ==> lo <= r <= hi
    ensures lo <= v <= hi ==> r == v
    ensures r == v || r == lo || r == hi
    ensures lo <= hi ==> r == Max(lo, Min(v, hi))
    ensures v < lo ==> r == lo
  {
    if v < lo then lo else if v > hi then hi else v
  }

  /** Per-tick amount for a number of matching neighbours. */
  function Amount(p: Producer, count: int): (a: int)
    ensures 0 <= p.maxPerTick ==> 0 <= a <= p.maxPerTick
    ensures 0 <= p.maxPerTick ==> a == Max(0, Min(p.base + count * p.per, p.maxPerTick))
    ensures p.base + count * p.per < 0 ==> a == 0
  {
    Clamp(p.base + count * p.per, 0, p.maxPerTick)
  }

  /** With a non-negative per-match yield and cap, more matching neighbours never
      give a smaller amount. */
  lemma AmountMonotone(p: Producer, c1: int, c2: int)
    requires 0 <= p.per && 0 <= p.maxPerTick && c1 <= c2
    ensures Amount(p, c1) <= Amount(p, c2)
  {
    assert c1 * p.per <= c2 * p.per by {
      assert (c2 - c1) * p.per >= 0;
    }
  }

  /** What a tick adds to the producer's output buffer. */
  datatype Output = Output(resourceId: string, amount: int)

  /** The producer's own tick: nothing without the stockpile, an instance or
      a profile; otherwise the clamped amount for the ring, added only when
      positive. */
  function OnTick(p: Producer, host: Host, ring: seq<Option<Tile>>): (out: Option<Output>)
    ensures !host.hasInventory || host.instance.None? || host.profile.None? ==> out.None?
    ensures out.Some? ==> out.value.resourceId == OutputId(p.kind) && 0 < out.value.amount
    ensures out.Some? ==> out.value.amount <= p.maxPerTick
    ensures out.Some? ==> out.value.amount == Amount(p, CountMatches(ring, TargetOf(p.kind, host.profile.value)))
    ensures host.hasInventory && host.instance.Some? && host.profile.Some? ==>
              (Amount(p, CountMatches(ring, TargetOf(p.kind, host.profile.value))) > 0 ==> out.Some?)
  {
    if !host.hasInventory || host.instance.None? || host.profile.None? then None
    else
      var amount := Amount(p, CountMatches(ring, TargetOf(p.kind, host.profile.value)));
      if amount > 0 then Some(Output(OutputId(p.kind), amount)) else None
  }

  /** One tick as the tick source delivers it: the shared guard, then the
      producer's tick over the ring around its tile. */
  function Tick(p: Producer, scene: Scene, host: Host, generatorProfile: Option<Profile>): (r: (Host, Option<Output>))
    ensures !OnTickSafe(host, generatorProfile).1 ==> r.1.None?
    ensures r.0 == OnTickSafe(host, generatorProfile).0
    ensures OnTickSafe(host, generatorProfile).1 ==> r.1 == OnTick(p, r.0, GetNeighborsRing1(scene, r.0))
  {
    var (host', run) := OnTickSafe(host, generatorProfile);
    if run then (host', OnTick(p, host', GetNeighborsRing1(scene, host'))) else (host', None)
  }

  /** At most six neighbours ever count, so a producer with the default
      settings outputs exactly the number of matching neighbours, up to its
      cap, and nothing when no neighbour matches. */
  lemma DefaultOutputIsCount(kind: Kind, scene: Scene, host: Host, generatorProfile: Option<Profile>)
    requires OnTickSafe(host, generatorProfile).1
    ensures var host' := OnTickSafe(host, generatorProfile).0;
      var n := CountMatches(GetNeighborsRing1(scene, host'), TargetOf(kind, host'.profile.value));
      var out := Tick(DefaultProducer(kind), scene, host, generatorProfile).1;
      && n <= 6
      && (out.Some? <==> n > 0)
      && (out.Some? ==> out.value.amount == (if n < DefaultProducer(kind).maxPerTick then n else DefaultProducer(kind).maxPerTick))
  {
  }

  /** With the slot unset nothing counts, so the default producers are idle. */
  lemma UnsetSlotProducesNothing(kind: Kind, scene: Scene, host: Host, generatorProfile: Option<Profile>)
    requires OnTickSafe(host, generatorProfile).1
    requires TargetOf(kind, OnTickSafe(host, generatorProfile).0.profile.value).None?
    ensures Tick(DefaultProducer(kind), scene, host, generatorProfile).1.None?
  {
  }
}

=== FILE: resource_inventory.dfy ===
/** The player's stockpile of wood, stone and water. Ids are matched after
    lower-casing, so "Wood" and "WOOD" name the same counter. */
module ResourceInventory {
  import opened Wrappers
  import opened Resources
  import opened BuildingType

  /** The inspector starting amounts. */
  const StartWood: int := 50
  const StartStone: int := 30
  const StartWater: int := 0

  datatype Inventory = Inventory(wood: int, stone: int, water: int)
  {
    function Count(k: Resource): int
    {
      match k
      case Wood => wood
      case Stone => stone
      case Water => water
    }

    /** Replaces one counter and keeps the other two. */
    function WithCount(k: Resource, v: int): (r: Inventory)
      ensures r.Count(k) == v
      ensures forall j :: j != k ==> r.Count(j) == Count(j)
    {
      match k
      case Wood => this.(wood := v)
      case Stone => this.(stone := v)
      case Water => this.(water := v)
    }
  }

  const StartInventory: Inventory := Inventory(StartWood, StartStone, StartWater)

  /** Lower-cases ASCII letters and keeps every other character. For the three
      ids this agrees with invariant-culture lower-casing: no non-ASCII
      character lower-cases to a letter of "wood", "stone" or "water". */
  function LowerChar(c: char): char
  {
    if 'A' <= c <= 'Z' then (c as int + 32) as char else c
  }

  function Lower(s: string): (r: string)
    ensures |r| == |s|
    ensures forall i :: 0 <= i < |s| ==> r[i] == LowerChar(s[i])
  {
    if |s| == 0 then "" else [LowerChar(s[0])] + Lower(s[1..])
  }

  /** The counter an id names, ignoring case. */
  function KindOfId(id: string): (r: Option<Resource>)
    ensures forall k :: r == Some(k) <==> Lower(id) == Name(k)
  {
    KindOf(Lower(id))
  }

  /** Adds amount to the counter id names. A zero amount and an unknown id
      change nothing. */
  function Add(inv: Inventory, id: string, amount: int): (r: Inventory)
    ensures amount == 0 ==> r == inv
    ensures KindOfId(id).None? ==> r == inv
    ensures KindOfId(id).Some? ==>
              r.Count(KindOfId(id).value) == inv.Count(KindOfId(id).value) + amount
              && forall j :: j != KindOfId(id).value ==> r.Count(j) == inv.Count(j)
  {
    if amount == 0 then inv
    else
      match KindOfId(id)
      case Some(k) => inv.WithCount(k, inv.Count(k) + amount)
      case None => inv
  }

  /** The counter id names; 0 for an unknown id. */
  function GetAmount(inv: Inventory, id: string): (n: int)
    ensures KindOfId(id).None? ==> n == 0
  {
    match KindOfId(id)
    case Some(k) => inv.Count(k)
    case None => 0
  }

  /** Overwrites the counter id names; an unknown id changes nothing. */
  function SetAmount(inv: Inventory, id: string, value: int): (r: Inventory)
    ensures KindOfId(id).None? ==> r == inv
    ensures KindOfId(id).Some? ==> forall j :: j != KindOfId(id).value ==> r.Count(j) == inv.Count(j)
  {
    match KindOfId(id)
    case Some(k) => inv.WithCount(k, value)
    case None => inv
  }

  /** The three counters, read through their lower-case ids. */
  function GetAll(inv: Inventory): (r: (int, int, int))
    ensures r == (inv.wood, inv.stone, inv.water)
  {
    assert Lower("wood") == "wood" && Lower("stone") == "stone" && Lower("water") == "water";
    (GetAmount(inv, "wood"), GetAmount(inv, "stone"), GetAmount(inv, "water"))
  }

  /** Writes all three counters through their lower-case ids. */
  function SetAll(inv: Inventory, wood: int, stone: int, water: int): (r: Inventory)
    ensures r == Inventory(wood, stone, water)
  {
    assert Lower("wood") == "wood" && Lower("stone") == "stone" && Lower("water") == "water";
    SetAmount(SetAmount(SetAmount(inv, "wood", wood), "stone", stone), "water", water)
  }

  /** A set amount reads back, whatever the case of the id. */
  lemma SetThenGet(inv: Inventory, id: string, value: int)
    requires KindOfId(id).Some?
    ensures GetAmount(SetAmount(inv, id, value), id) == value
  {
  }

  /** An unknown id reads 0 and writes nowhere. */
  lemma UnknownIdIgnored(inv: Inventory, id: string, v: int)
    requires KindOfId(id).None?
    ensures GetAmount(inv, id) == 0
    ensures SetAmount(inv, id, v) == inv
    ensures Add(inv, id, v) == inv
  {
  }

  /** Adding to a known id reads back as the old amount plus the added one. */
  lemma AddThenGet(inv: Inventory, id: string, amount: int)
    requires KindOfId(id).Some?
    ensures GetAmount(Add(inv, id, amount), id) == GetAmount(inv, id) + amount
  {
  }

  /** SetAll then GetAll returns the three values set. */
  lemma SetAllGetAll(inv: Inventory, wood: int, stone: int, water: int)
    ensures GetAll(SetAll(inv, wood, stone, water)) == (wood, stone, water)
    ensures SetAll(inv, wood, stone, water) == Inventory(wood, stone, water)
  {
    assert Lower("wood") == "wood" && Lower("stone") == "stone" && Lower("water") == "water";
  }

  /** Whether the stock covers a building's wood and stone cost; never for a
      missing type. Water is not a building cost. */
  predicate CanAfford(inv: Inventory, t: Option<BuildingType>)
  {
    t.Some? && inv.wood >= t.value.costWood && inv.stone >= t.value.costStone
  }

  /** Subtracts the wood and stone cost without checking affordability;
      a missing type changes nothing. */
  function Pay(inv: Inventory, t: Option<BuildingType>): (r: Inventory)
    ensures t.None? ==> r == inv
    ensures t.Some? ==> r.wood == inv.wood - t.value.costWood && r.stone == inv.stone - t.value.costStone
    ensures r.water == inv.water
  {
    if t.None? then inv else inv.(wood := inv.wood - t.value.costWood, stone := inv.stone - t.value.costStone)
  }

  /** Paying what one can afford never drives wood or stone below zero. */
  lemma PayAfterAfford(inv: Inventory, t: Option<BuildingType>)
    requires CanAfford(inv, t)
    ensures Pay(inv, t).wood >= 0 && Pay(inv, t).stone >= 0
    ensures Pay(inv, t).water == inv.water
  {
  }
}

=== FILE: resources.dfy ===
/** The three resource kinds the economy moves, their string ids, and a
    record holding one value per kind (the scheduler's per-resource
    dictionaries, which always hold exactly these three keys). */
module Resources {
  import opened Wrappers

  datatype Resource = Wood | Stone | Water

  /** The ids used as dictionary keys and job resource ids. */
  function Name(k: Resource): string
  {
    match k
    case Wood => "wood"
    case Stone => "stone"
    case Water => "water"
  }

  /** The fixed enumeration order in which the scheduler lists the kinds. */
  const AllKinds: seq<Resource> := [Wood, Stone, Water]

  /** Exact (case-sensitive) lookup of an id among the three dictionary keys. */
  function KindOf(id: string): (r: Option<Resource>)
    ensures forall k :: r == Some(k) <==> id == Name(k)
  {
    if id == "wood" then Some(Wood)
    else if id == "stone" then Some(Stone)
    else if id == "water" then Some(Water)
    else None
  }

  /** One value per resource kind. */
  datatype PerResource<T> = PerResource(wood: T, stone: T, water: T) {

    function Get(k: Resource): T
    {
      match k
      case Wood => wood
      case Stone => stone
      case Water => water
    }

    /** Replaces the value of one kind and keeps the other two. */
    function Set(k: Resource, v: T): (r: PerResource<T>)
      ensures r.Get(k) == v
      ensures forall j :: j != k ==> r.Get(j) == Get(j)
    {
      match k
      case Wood => this.(wood := v)
      case Stone => this.(stone := v)
      case Water => this.(water := v)
    }
  }

  function Uniform<T>(v: T): (r: PerResource<T>)
    ensures forall k :: r.Get(k) == v
  {
    PerResource(v, v, v)
  }
}

=== FILE: seqs.dfy ===
/** First-match search over a sequence: the shape of every "first element
    that satisfies ..." loop in the job board and the tile lookups. */
module Seqs {
  import opened Wrappers

  /** The lowest index whose element satisfies p, or None when none does. */
  function FirstIndex<T>(s: seq<T>, p: T -> bool): (r: Option<nat>)
    ensures r.Some? ==> r.value < |s| && p(s[r.value])
    ensures r.Some? ==> forall i :: 0 <= i < r.value ==> !p(s[i])
    ensures r.None? <==> forall i :: 0 <= i < |s| ==> !p(s[i])
  {
    if |s| == 0 then None
    else if p(s[0]) then Some(0)
    else
      match FirstIndex(s[1..], p)
      case None => None
      case Some(i) => Some(i + 1)
  }
}

=== FILE: warehouse.dfy ===
/** The warehouse: it produces nothing, and while it is enabled it raises
    the stockpile's maximums by a fixed bonus. An `applied` flag makes the
    bonus a toggle: it is added at most once and removed at most once. */
module Warehouse {
  import opened Wrappers
  import opened HexTile
  import opened BuildingBehaviour

  /** The stockpile's three maximums, as far as the warehouse changes them. */
  datatype Caps = Caps(wood: int, stone: int, water: int)

  /** The bonus settings and whether the bonus is currently added. */
  datatype Warehouse = Warehouse(addMaxWood: int, addMaxStone: int, addMaxWater: int, applied: bool)

  /** The inspector defaults: +50 wood, +50 stone, no water; not yet applied. */
  const DefaultWarehouse: Warehouse := Warehouse(50, 50, 0, false)

  /** Shifts the three maximums; the stockpile's own cap method is not part
      of this model and is taken to add its three arguments. */
  function AddCaps(c: Caps, dWood: int, dStone: int, dWater: int): Caps
  {
    Caps(c.wood + dWood, c.stone + dStone, c.water + dWater)
  }

  /** The maximums with the bonus counted `times` times (1 added, -1 taken back). */
  function WithBonus(c: Caps, w: Warehouse, times: int): Caps
  {
    AddCaps(c, times * w.addMaxWood, times * w.addMaxStone, times * w.addMaxWater)
  }

  /** Adds the bonus unless it is already added. `inv` is the stockpile the
      warehouse resolves (its reference, else a scene search); without one
      nothing changes and the bonus stays unapplied. */
  function Apply(w: Warehouse, inv: Option<Caps>): (r: (Warehouse, Option<Caps>))
    ensures w.applied ==> r == (w, inv)
    ensures !w.applied && inv.None? ==> r == (w, inv) && !r.0.applied
    ensures !w.applied && inv.Some? ==> r.0 == w.(applied := true) && r.1 == Some(WithBonus(inv.value, w, 1))
  {
    if w.applied then (w, inv)
    else if inv.None? then (w, inv)
    else (w.(applied := true), Some(AddCaps(inv.value, w.addMaxWood, w.addMaxStone, w.addMaxWater)))
  }

  /** Takes the bonus back if it was added. Without a stockpile the flag is
      cleared anyway and no maximum changes. */
  function Remove(w: Warehouse, inv: Option<Caps>): (r: (Warehouse, Option<Caps>))
    ensures !w.applied ==> r == (w, inv)
    ensures w.applied && inv.None? ==> r == (w.(applied := false), inv)
    ensures w.applied && inv.Some? ==> r.0 == w.(applied := false) && r.1 == Some(WithBonus(inv.value, w, -1))
  {
    if !w.applied then (w, inv)
    else if inv.None? then (w.(applied := false), inv)
    else (w.(applied := false), Some(AddCaps(inv.value, -w.addMaxWood, -w.addMaxStone, -w.addMaxWater)))
  }

  /** The lifecycle hooks: enabling applies; disabling and destroying remove. */
  function OnEnable(w: Warehouse, inv: Option<Caps>): (r: (Warehouse, Option<Caps>))
    ensures inv.Some? ==> r.0.applied
  {
    Apply(w, inv)
  }

  function OnDisable(w: Warehouse, inv: Option<Caps>): (r: (Warehouse, Option<Caps>))
    ensures !r.0.applied
  {
    Remove(w, inv)
  }

  function OnDestroy(w: Warehouse, inv: Option<Caps>): (r: (Warehouse, Option<Caps>))
    ensures !r.0.applied
  {
    Remove(w, inv)
  }

  /** The stockpile's maximums are its base maximums plus the bonus exactly
      when the flag says it is applied. */
  predicate Accounts(w: Warehouse, base: Caps, inv: Option<Caps>)
  {
    inv.Some? && inv.value == WithBonus(base, w, if w.applied then 1 else 0)
  }

  /** Every hook keeps the maximums in step with the flag while the
      stockpile stays resolvable. */
  lemma HooksKeepAccounts(w: Warehouse, base: Caps, inv: Option<Caps>)
    requires Accounts(w, base, inv)
    ensures var r := OnEnable(w, inv); Accounts(r.0, base, r.1)
    ensures var r := OnDisable(w, inv); Accounts(r.0, base, r.1)
    ensures var r := OnDestroy(w, inv); Accounts(r.0, base, r.1)
  {
  }

  /** Applying twice is applying once, and removing twice is removing once. */
  lemma ToggleIdempotent(w: Warehouse, inv: Option<Caps>)
    ensures var r := Apply(w, inv); Apply(r.0, r.1) == r
    ensures var r := Remove(w, inv); Remove(r.0, r.1) == r
  {
  }

  /** Applying and then removing leaves the maximums as they were. */
  lemma ApplyThenRemoveNetsZero(w: Warehouse, c: Caps)
    requires !w.applied
    ensures var r := Apply(w, Some(c)); Remove(r.0, r.1) == (w, Some(c))
  {
  }

  /** A disable followed by a destroy takes the bonus back once, not twice. */
  lemma DisableThenDestroyRemovesOnce(w: Warehouse, c: Caps)
    requires w.applied
    ensures var r := OnDisable(w, Some(c)); OnDestroy(r.0, r.1) == (w.(applied := false), Some(WithBonus(c, w, -1)))
  {
  }

  /** The warehouse's tick: the shared guard runs, and nothing else changes,
      neither the warehouse nor the maximums. */
  function Tick(w: Warehouse, host: Host, generatorProfile: Option<Profile>, inv: Option<Caps>): (r: (Host, Warehouse, Option<Caps>))
    ensures r.0 == OnTickSafe(host, generatorProfile).0
    ensures r.1 == w && r.2 == inv
  {
    (OnTickSafe(host, generatorProfile).0, w, inv)
  }
}

=== FILE: worker_agent.dfy ===
/** A hauling worker: a five-state machine that claims a job from the
    scheduler, walks to the producer, loads, walks to the warehouse, unloads,
    and loops until the job's amount is used up. The world around one worker
    (job board, scheduler, stockpile, building sites, tile index, terrain
    profile) is an explicit value that each step returns updated. */
module WorkerAgent {
  import opened Wrappers
  import opened Resources
  import opened WorkerJob
  import opened JobBoard
  import opened ResourceInventory
  import opened WorkerManager
  import opened HexCoords
  import opened HexTile
  import opened HexPathfinder
  import opened Ints

  datatype State = Idle | ToSource | Loading | ToDest | Unloading

  /** `job` is the index of the held job on the board; `carryingId` None is
      the source's null; `path` and `pathIndex` are the walking cursor. */
  datatype Agent = Agent(
    id: int,
    carryCapacity: int,
    state: State,
    carryingId: Option<string>,
    carryingAmount: int,
    job: Option<nat>,
    path: seq<Hex>,
    pathIndex: nat)

  /** The inspector default carry capacity. */
  const DefaultCarryCapacity: int := 6

  /** A freshly spawned worker: idle, empty-handed, with no path. */
  function NewAgent(id: int, carryCapacity: int): (a: Agent)
    ensures a.state == Idle && a.job.None? && a.carryingId.None? && a.carryingAmount == 0
    ensures a.path == [] && a.pathIndex == 0 && a.id == id && a.carryCapacity == carryCapacity
  {
    Agent(id, carryCapacity, Idle, None, 0, None, [], 0)
  }

  /** What one worker sees of the scene. `manager` None is a missing
      scheduler; `stock` is the stockpile found for the destination (and the
      one the scheduler reads); `sites` maps each live building to the
      coordinates of its instance; a job's building missing from `sites` is
      null or destroyed. The job board is always present. */
  datatype World = World(
    board: Board,
    manager: Option<Manager>,
    cfg: Config,
    stock: Option<Inventory>,
    sites: map<nat, Hex>,
    idx: TileIndex,
    profile: Option<Profile>)

  /** The agent's job reference points into the board. */
  predicate HoldsValidRef(a: Agent, w: World)
  {
    a.job.Some? ==> a.job.value < |w.board.jobs|
  }

  /** A building reference that is neither null nor destroyed. */
  predicate Present(w: World, building: Option<nat>)
  {
    building.Some? && building.value in w.sites
  }

  /** The scheduler after a release of resId; nothing without a scheduler. */
  function ReleasedBy(m: Option<Manager>, resId: string): (r: Option<Manager>)
    ensures r.Some? <==> m.Some?
  {
    if m.Some? then Some(NotifyRelease(m.value, Some(resId))) else None
  }

  // ---- Leaving a job ----

  /** Gives the job up: invalidates it, releases its resource, and returns
      to Idle with empty hands, whatever the state was. */
  function AbortJob(a: Agent, w: World): (r: (Agent, World))
    requires HoldsValidRef(a, w)
    ensures r.0.state == Idle && r.0.job.None? && r.0.carryingId.None? && r.0.carryingAmount == 0
    ensures r.0 == a.(state := Idle, job := None, carryingId := None, carryingAmount := 0)
    ensures a.job.None? ==> r.1 == w
    ensures a.job.Some? ==>
              && r.1.board == InvalidateJob(w.board, a.job)
              && r.1.manager == ReleasedBy(w.manager, w.board.jobs[a.job.value].resourceId)
              && r.1 == w.(board := r.1.board, manager := r.1.manager)
  {
    var a' := a.(state := Idle, job := None, carryingId := None, carryingAmount := 0);
    if a.job.None? then (a', w)
    else
      var resId := w.board.jobs[a.job.value].resourceId;
      (a', w.(board := InvalidateJob(w.board, a.job), manager := ReleasedBy(w.manager, resId)))
  }

  /** Ends the job after the producer had nothing left: releases its
      resource, completes the job if its amount is used up and invalidates it
      otherwise, and returns to Idle. The hands are not emptied. */
  function CompleteOrInvalidate(a: Agent, w: World): (r: (Agent, World))
    requires HoldsValidRef(a, w)
    ensures r.0 == a.(state := Idle, job := None)
    ensures a.job.None? ==> r.1 == w
    ensures a.job.Some? ==>
              && r.1.manager == ReleasedBy(w.manager, w.board.jobs[a.job.value].resourceId)
              && (w.board.jobs[a.job.value].amount <= 0 ==> r.1.board == CompleteJob(w.board, a.job))
              && (w.board.jobs[a.job.value].amount > 0 ==> r.1.board == InvalidateJob(w.board, a.job))
              && r.1 == w.(board := r.1.board, manager := r.1.manager)
  {
    var a' := a.(state := Idle, job := None);
    if a.job.None? then (a', w)
    else
      var j := w.board.jobs[a.job.value];
      var m := ReleasedBy(w.manager, j.resourceId);
      var b := if j.amount <= 0 then CompleteJob(w.board, a.job) else InvalidateJob(w.board, a.job);
      (a', w.(board := b, manager := m))
  }

  // ---- Movement ----

  /** Plans a walk from the tile under the worker (`here`, None when no tile
      is found) to the target building. A missing target or tile fails and
      keeps the old path; otherwise the path is replaced by the search
      result, the cursor restarts at 0, and planning succeeds exactly when
      the search found a walk — which then leads from here to the target
      through walkable tiles and is as short as any such walk. */
  method PlanPathTo(a: Agent, w: World, target: Option<nat>, here: Option<Hex>) returns (a': Agent, ok: bool)
    ensures !Present(w, target) || here.None? ==> a' == a && !ok
    ensures Present(w, target) && here.Some? ==>
              && a' == a.(path := a'.path, pathIndex := 0)
              && (ok <==> |a'.path| > 0)
              && (ok ==> Connects(WalkableSet(w.idx, w.profile), here.value, w.sites[target.value], a'.path))
              && (forall p :: Connects(WalkableSet(w.idx, w.profile), here.value, w.sites[target.value], p) ==>
                    ok && |a'.path| <= |p|)
  {
    if !Present(w, target) || here.None? {
      return a, false;
    }
    var path := FindPath(here.value, w.sites[target.value], w.idx, w.profile);
    a' := a.(path := path, pathIndex := 0);
    ok := |path| > 0;
  }

  /** One frame of walking: past the end of the path nothing moves; a step
      whose tile is missing is skipped; otherwise the cursor advances once
      the worker has arrived on the step's tile. */
  function StepAlongPath(a: Agent, w: World, arrived: bool): (a': Agent)
    ensures a' == a.(pathIndex := a'.pathIndex)
    ensures a'.pathIndex == a.pathIndex || (a.pathIndex < |a.path| && a'.pathIndex == a.pathIndex + 1)
    ensures a.pathIndex < |a.path| && (arrived || IndexedTile(w.idx, a.path[a.pathIndex]).None?) ==>
              a'.pathIndex == a.pathIndex + 1
    ensures a.pathIndex < |a.path| && !arrived && IndexedTile(w.idx, a.path[a.pathIndex]).Some? ==>
              a'.pathIndex == a.pathIndex
  {
    if a.pathIndex >= |a.path| then a
    else if IndexedTile(w.idx, a.path[a.pathIndex]).None? then a.(pathIndex := a.pathIndex + 1)
    else if arrived then a.(pathIndex := a.pathIndex + 1)
    else a
  }

  /** The walk is over: the path is non-empty and the cursor has passed its
      end. The target the caller names plays no part. */
  predicate ReachedTarget(a: Agent, target: Hex)
  {
    |a.path| > 0 && a.pathIndex >= |a.path|
  }

  /** Walking n frames, arriving every time. */
  function Walk(a: Agent, w: World, n: nat): (a': Agent)
    decreases n
  {
    if n == 0 then a else Walk(StepAlongPath(a, w, true), w, n - 1)
  }

  /** A worker that arrives on every step reaches the end of a non-empty path
      after exactly as many frames as steps remain, and never overshoots. */
  lemma {:induction false} WalkReachesTarget(a: Agent, w: World, target: Hex)
    requires 0 < |a.path| && a.pathIndex <= |a.path|
    ensures Walk(a, w, |a.path| - a.pathIndex).pathIndex == |a.path|
    ensures ReachedTarget(Walk(a, w, |a.path| - a.pathIndex), target)
    decreases |a.path| - a.pathIndex
  {
    if a.pathIndex < |a.path| {
      var b := StepAlongPath(a, w, true);
      assert b.pathIndex == a.pathIndex + 1 && b.path == a.path;
      WalkReachesTarget(b, w, target);
      assert Walk(a, w, |a.path| - a.pathIndex) == Walk(b, w, |b.path| - b.pathIndex);
    }
  }

  // ---- Consistency of an agent with the board ----

  /** The bookkeeping the state machine keeps: Idle exactly when no job is
      held; a held job is on the board, Claimed and for a known resource;
      hands are empty before loading and hold a positive load of the job's
      resource, within capacity, after it; the cursor stays within the path. */
  predicate Consistent(a: Agent, b: Board)
  {
    && a.pathIndex <= |a.path|
    && (a.state == Idle <==> a.job.None?)
    && (a.job.Some? ==>
          && a.job.value < |b.jobs|
          && b.jobs[a.job.value].status == Claimed
          && KindOf(b.jobs[a.job.value].resourceId).Some?)
    && (a.state == Idle || a.state == ToSource || a.state == Loading ==>
          a.carryingId.None? && a.carryingAmount == 0)
    && (a.state == ToDest || a.state == Unloading ==>
          && a.job.Some? && a.job.value < |b.jobs|
          && a.carryingId == Some(b.jobs[a.job.value].resourceId)
          && 0 < a.carryingAmount <= a.carryCapacity)
  }

  lemma NewAgentConsistent(id: int, carryCapacity: int, b: Board)
    ensures Consistent(NewAgent(id, carryCapacity), b)
  {
  }

  // ---- The five steps ----

  /** Some walk through walkable tiles leads from the tile under the worker
      to the target building. */
  ghost predicate WalkExists(w: World, target: Option<nat>, here: Option<Hex>)
  {
    && Present(w, target) && here.Some?
    && exists p :: Connects(WalkableSet(w.idx, w.profile), here.value, w.sites[target.value], p)
  }

  /** Planning a walk from `here` to `target` and acting on the result, as
      every step that sets off does: when a walk exists, the world is kept
      and `base` enters `next` on a shortest walk from its start; otherwise
      `base` gives its job up (the path left as planning left it). */
  ghost predicate SetsOff(base: Agent, w: World, target: Option<nat>, here: Option<Hex>, next: State,
                          a': Agent, w': World)
    requires HoldsValidRef(base, w)
  {
    if WalkExists(w, target, here) then
      && w' == w
      && a' == base.(state := next, path := a'.path, pathIndex := 0)
      && Connects(WalkableSet(w.idx, w.profile), here.value, w.sites[target.value], a'.path)
      && (forall p :: Connects(WalkableSet(w.idx, w.profile), here.value, w.sites[target.value], p) ==>
            |a'.path| <= |p|)
    else
      && a' == AbortJob(base, w).0.(path := a'.path, pathIndex := a'.pathIndex)
      && w' == AbortJob(base, w).1
  }

  /** The outcome of an Idle step: without a scheduler nothing changes; the
      scheduler's answer is always kept; no grant leaves the agent as it was;
      a grant empties the hands and sets off for the job's source, or gives
      the job up at once when no walk there exists. */
  ghost predicate ClaimOutcome(a: Agent, w: World, here: Option<Hex>, a': Agent, w': World)
  {
    && (w.manager.None? ==> a' == a && w' == w)
    && (w.manager.Some? ==>
          var r := TryClaimJobFor(w.manager.value, w.cfg, Some(w.board), w.stock, a.id);
          var wc := w.(manager := Some(r.manager), board := r.board.value);
          && (r.job.None? ==> a' == a && w' == wc)
          && (r.job.Some? ==>
                && r.job.value < |wc.board.jobs|
                && SetsOff(a.(job := r.job, carryingId := None, carryingAmount := 0), wc,
                           wc.board.jobs[r.job.value].source, here, ToSource, a', w')))
  }

  /** Idle: asks the scheduler for a job. The scheduler's state advances even
      when it grants nothing. */
  method TryClaimJob(a: Agent, w: World, here: Option<Hex>) returns (a': Agent, w': World)
    requires HoldsValidRef(a, w)
    ensures ClaimOutcome(a, w, here, a', w')
    ensures Consistent(a, w.board) && a.state == Idle ==> Consistent(a', w'.board)
  {
    if w.manager.None? {
      return a, w;
    }
    var r := TryClaimJobFor(w.manager.value, w.cfg, Some(w.board), w.stock, a.id);
    w' := w.(manager := Some(r.manager), board := r.board.value);
    if r.job.None? {
      return a, w';
    }
    a', w' := TakeJob(a, w', r.job.value, here);
  }

  /** Takes a granted job: empties the hands and sets off for the job's
      source, or aborts the job at once when no walk there exists. */
  method TakeJob(a: Agent, w: World, job: nat, here: Option<Hex>) returns (a': Agent, w': World)
    requires job < |w.board.jobs|
    ensures SetsOff(a.(job := Some(job), carryingId := None, carryingAmount := 0), w,
                    w.board.jobs[job].source, here, ToSource, a', w')
    ensures a'.state != ToSource ==> a'.state == Idle && w'.board.jobs[job].status == Invalid
    ensures (a.state == Idle && a.pathIndex <= |a.path| && w.board.jobs[job].status == Claimed
             && KindOf(w.board.jobs[job].resourceId).Some?) ==> Consistent(a', w'.board)
  {
    var held := a.(job := Some(job), carryingId := None, carryingAmount := 0);
    var ok;
    a', ok := PlanPathTo(held, w, w.board.jobs[job].source, here);
    if !ok {
      var ab := AbortJob(a', w);
      a', w' := ab.0, ab.1;
    } else {
      a', w' := a'.(state := ToSource), w;
    }
  }

  /** The outcome of a Loading step: a missing job or producer aborts;
      nothing handed over ends the job; otherwise exactly the units handed
      over move from the job's amount into the hands, and the worker sets off
      for the warehouse, or gives the job up (dropping the load) when no walk
      there exists. */
  ghost predicate LoadOutcome(a: Agent, w: World, take: int -> int, here: Option<Hex>, a': Agent, w': World)
    requires HoldsValidRef(a, w)
  {
    && (a.job.None? || !Present(w, w.board.jobs[a.job.value].source) ==> (a', w') == AbortJob(a, w))
    && (a.job.Some? && Present(w, w.board.jobs[a.job.value].source) ==>
          var i := a.job.value;
          var j := w.board.jobs[i];
          var got := take(Min(a.carryCapacity, j.amount));
          && (got <= 0 ==> (a', w') == CompleteOrInvalidate(a, w))
          && (got > 0 ==>
                var loaded := a.(carryingId := Some(j.resourceId), carryingAmount := got);
                var wl := w.(board := w.board.(jobs := w.board.jobs[i := j.(amount := j.amount - got)]));
                && SetsOff(loaded, wl, j.dest, here, ToDest, a', w')
                && |w'.board.jobs| == |w.board.jobs|
                && w'.board.jobs[i].amount == j.amount - got
                && (a'.state == ToDest ==> a'.carryingAmount + w'.board.jobs[i].amount == j.amount)))
  }

  /** Loading: asks the producer for min(capacity, remaining amount) units;
      `take` is the producer's output buffer, which hands over at most what
      was asked. */
  method DoLoad(a: Agent, w: World, take: int -> int, here: Option<Hex>) returns (a': Agent, w': World)
    requires HoldsValidRef(a, w)
    requires forall n :: take(n) <= Max(0, n)
    ensures LoadOutcome(a, w, take, here, a', w')
    ensures Consistent(a, w.board) && a.state == Loading ==> Consistent(a', w'.board)
  {
    if a.job.None? || !Present(w, w.board.jobs[a.job.value].source) {
      var r := AbortJob(a, w);
      a', w' := r.0, r.1;
      return;
    }
    var i := a.job.value;
    var j := w.board.jobs[i];
    var got := take(Min(a.carryCapacity, j.amount));
    if got <= 0 {
      var r := CompleteOrInvalidate(a, w);
      a', w' := r.0, r.1;
      return;
    }
    var loaded := a.(carryingId := Some(j.resourceId), carryingAmount := got);
    w' := w.(board := w.board.(jobs := w.board.jobs[i := j.(amount := j.amount - got)]));
    var ok;
    a', ok := PlanPathTo(loaded, w', j.dest, here);
    if !ok {
      var ab := AbortJob(a', w');
      a', w' := ab.0, ab.1;
    } else {
      a' := a'.(state := ToDest);
    }
  }

  /** The outcome of an Unloading step: the guards abort or end the job;
      otherwise exactly the carried load goes into the stockpile, the hands
      are emptied and the resource is released. A used-up job is completed;
      amount left sets the worker off for the source on the same job, or,
      when no walk there exists, invalidates the job and releases a second
      time. */
  ghost predicate UnloadOutcome(a: Agent, w: World, here: Option<Hex>, a': Agent, w': World)
    requires HoldsValidRef(a, w)
  {
    && (a.job.None? || !Present(w, w.board.jobs[a.job.value].dest) ==> (a', w') == AbortJob(a, w))
    && (a.job.Some? && Present(w, w.board.jobs[a.job.value].dest)
          && (a.carryingId.None? || a.carryingId.value == "" || a.carryingAmount <= 0) ==>
          (a', w') == CompleteOrInvalidate(a, w))
    && (a.job.Some? && Present(w, w.board.jobs[a.job.value].dest)
          && a.carryingId.Some? && a.carryingId.value != "" && a.carryingAmount > 0 ==>
          var j := w.board.jobs[a.job.value];
          var emptied := a.(carryingId := None, carryingAmount := 0);
          var wu := w.(stock := if w.stock.Some? then Some(ResourceInventory.Add(w.stock.value, a.carryingId.value, a.carryingAmount)) else None,
                       manager := ReleasedBy(w.manager, j.resourceId));
          && (w.stock.None? ==> (a', w') == AbortJob(a, w))
          && (w.stock.Some? && j.amount <= 0 ==>
                && a' == emptied.(state := Idle, job := None)
                && w' == wu.(board := CompleteJob(w.board, a.job)))
          && (w.stock.Some? && j.amount > 0 ==>
                && SetsOff(emptied, wu, j.source, here, ToSource, a', w')
                && (a'.state != ToSource ==>
                      && w'.board == InvalidateJob(w.board, a.job)
                      && w'.manager == ReleasedBy(ReleasedBy(w.manager, j.resourceId), j.resourceId))))
  }

  /** Unloading: delivers the load into the destination's stockpile. */
  method DoUnload(a: Agent, w: World, here: Option<Hex>) returns (a': Agent, w': World)
    requires HoldsValidRef(a, w)
    ensures UnloadOutcome(a, w, here, a', w')
    ensures Consistent(a, w.board) && a.state == Unloading ==> Consistent(a', w'.board)
  {
    if a.job.None? || !Present(w, w.board.jobs[a.job.value].dest) {
      var r := AbortJob(a, w);
      a', w' := r.0, r.1;
      return;
    }
    if a.carryingId.None? || a.carryingId.value == "" || a.carryingAmount <= 0 {
      var r := CompleteOrInvalidate(a, w);
      a', w' := r.0, r.1;
      return;
    }
    if w.stock.None? {
      var r := AbortJob(a, w);
      a', w' := r.0, r.1;
      return;
    }
    var j := w.board.jobs[a.job.value];
    var emptied := a.(carryingId := None, carryingAmount := 0);
    w' := w.(stock := Some(ResourceInventory.Add(w.stock.value, a.carryingId.value, a.carryingAmount)),
             manager := ReleasedBy(w.manager, j.resourceId));
    if j.amount > 0 {
      var ok;
      a', ok := PlanPathTo(emptied, w', j.source, here);
      if !ok {
        var ab := AbortJob(a', w');
        a', w' := ab.0, ab.1;
      } else {
        a' := a'.(state := ToSource);
      }
    } else {
      w' := w'.(board := CompleteJob(w'.board, a.job));
      a' := emptied.(job := None, state := Idle);
    }
  }

  /** One frame's inputs from outside the model: the tile under the worker,
      whether the current path step has been reached, and the producer's
      output buffer. */
  datatype Frame = Frame(here: Option<Hex>, arrived: bool, take: int -> int)

  /** The outcome of a walking step: the world is untouched, the agent takes
      one step along the path, and it switches to `next` exactly when that
      step ends the walk. */
  predicate WalkOutcome(a: Agent, w: World, arrived: bool, next: State, a': Agent, w': World)
  {
    && w' == w
    && var s := StepAlongPath(a, w, arrived);
       a' == (if ReachedTarget(s, Hex(0, 0)) then s.(state := next) else s)
  }

  /** One frame of the worker: dispatches on the state. Idle asks for a job,
      Loading and Unloading do their step, and the walking states step along
      the path and switch to loading or unloading once the walk is over. */
  method Update(a: Agent, w: World, f: Frame) returns (a': Agent, w': World)
    requires HoldsValidRef(a, w)
    requires forall n :: f.take(n) <= Max(0, n)
    ensures a.state == Idle ==> ClaimOutcome(a, w, f.here, a', w')
    ensures a.state == ToSource ==> WalkOutcome(a, w, f.arrived, Loading, a', w')
    ensures a.state == Loading ==> LoadOutcome(a, w, f.take, f.here, a', w')
    ensures a.state == ToDest ==> WalkOutcome(a, w, f.arrived, Unloading, a', w')
    ensures a.state == Unloading ==> UnloadOutcome(a, w, f.here, a', w')
    ensures Consistent(a, w.board) ==> Consistent(a', w'.board)
  {
    match a.state
    case Idle =>
      a', w' := TryClaimJob(a, w, f.here);
    case ToSource =>
      a' := StepAlongPath(a, w, f.arrived);
      w' := w;
      if ReachedTarget(a', Hex(0, 0)) {
        a' := a'.(state := Loading);
      }
    case Loading =>
      a', w' := DoLoad(a, w, f.take, f.here);
    case ToDest =>
      a' := StepAlongPath(a, w, f.arrived);
      w' := w;
      if ReachedTarget(a', Hex(0, 0)) {
        a' := a'.(state := Unloading);
      }
    case Unloading =>
      a', w' := DoUnload(a, w, f.here);
  }
}

=== FILE: worker_job.dfy ===
/** A pickup-and-deliver job: carry `amount` units of one resource from a
    producer building to a warehouse. Buildings are referred to by identity. */
module WorkerJob {
  import opened Wrappers

  datatype JobStatus = Pending | Claimed | Done | Invalid

  /** `source` and `dest` are building identities, None for a missing
      (null or destroyed) building. */
  datatype Job = Job(resourceId: string, amount: int, source: Option<nat>, dest: Option<nat>, status: JobStatus)

  /** A freshly built job is waiting to be claimed. */
  function NewJob(resourceId: string, amount: int, source: Option<nat>, dest: Option<nat>): (j: Job)
    ensures j.status == Pending
    ensures j.resourceId == resourceId && j.amount == amount && j.source == source && j.dest == dest
  {
    Job(resourceId, amount, source, dest, Pending)
  }
}

=== FILE: worker_manager.dfy ===
/** The worker scheduler: decides which resource a requesting worker should
    haul next, enforces per-resource quotas, and keeps per-resource counters
    of active workers and of claims made in the current frame. */
module WorkerManager {
  import opened Wrappers
  import opened Resources
  import opened WorkerJob
  import opened JobBoard
  import opened ResourceInventory
  import opened Ints

  /** The inspector settings. `minWorkersPerResource` is kept for
      completeness: no operation reads it. */
  datatype Config = Config(
    targetWood: int, targetStone: int, targetWater: int,
    backlogWeight: real, emaSmoothing: real,
    maxWorkersPerResource: int, minWorkersPerResource: int,
    maxNewClaimsPerResourcePerTick: int, workerStickinessTicks: int)

  const DefaultConfig: Config := Config(120, 90, 60, 0.5, 0.2, 999, 1, 3, 20)

  /** A worker's preferred resource and the last tick it is preferred on. */
  datatype Sticky = Sticky(res: Resource, untilTick: int)

  datatype Manager = Manager(
    ema: PerResource<real>,
    active: PerResource<int>,
    newClaims: PerResource<int>,
    sticky: map<int, Sticky>,
    tick: int)

  const InitialManager: Manager := Manager(Uniform(0.0), Uniform(0), Uniform(0), map[], 0)

  // ---- Frame reset ----

  /** The end-of-frame step: advances the tick and clears every claims-this-frame counter. */
  function LateUpdate(m: Manager): (m': Manager)
    ensures m'.tick == m.tick + 1
    ensures forall k :: m'.newClaims.Get(k) == 0
    ensures m'.active == m.active && m'.ema == m.ema && m'.sticky == m.sticky
  {
    m.(tick := m.tick + 1, newClaims := Uniform(0))
  }

  // ---- Release ----

  /** A worker gives up its claim on a resource: that resource's active count
      drops by one but never below zero. A missing, empty or unknown id (the
      keys are matched exactly, case included) changes nothing. */
  function NotifyRelease(m: Manager, resId: Option<string>): (m': Manager)
    ensures resId.None? || resId.value == "" || KindOf(resId.value).None? ==> m' == m
    ensures resId.Some? && KindOf(resId.value).Some? ==>
              var k := KindOf(resId.value).value;
              && m'.active.Get(k) == (if m.active.Get(k) >= 1 then m.active.Get(k) - 1 else 0)
              && (forall j :: j != k ==> m'.active.Get(j) == m.active.Get(j))
              && m'.newClaims == m.newClaims && m'.ema == m.ema && m'.sticky == m.sticky && m'.tick == m.tick
  {
    if resId.None? || resId.value == "" then m
    else
      match KindOf(resId.value)
      case None => m
      case Some(k) => m.(active := m.active.Set(k, Max(0, m.active.Get(k) - 1)))
  }

  // ---- Weights ----

  /** Mathf.Lerp: the interpolation parameter is clamped to [0, 1]. */
  function Lerp(a: real, b: real, t: real): (r: real)
    ensures t <= 0.0 ==> r == a
    ensures t >= 1.0 ==> r == b
    ensures 0.0 <= t <= 1.0 ==> r == a + (b - a) * t
  {
    var c := if t < 0.0 then 0.0 else if t > 1.0 then 1.0 else t;
    a + (b - a) * c
  }

  function Target(cfg: Config, k: Resource): int
  {
    match k
    case Wood => cfg.targetWood
    case Stone => cfg.targetStone
    case Water => cfg.targetWater
  }

  /** How far the stock is below target, never negative; a missing inventory counts as empty. */
  function Need(cfg: Config, stock: Option<Inventory>, k: Resource): (n: int)
    ensures n >= 0
    ensures n >= Target(cfg, k) - (if stock.Some? then stock.value.Count(k) else 0)
    ensures n == 0 || n == Target(cfg, k) - (if stock.Some? then stock.value.Count(k) else 0)
  {
    Max(0, Target(cfg, k) - (if stock.Some? then stock.value.Count(k) else 0))
  }

  /** Raw priority: need plus the weighted backlog of pending amounts. */
  function Score(cfg: Config, stock: Option<Inventory>, b: Board, k: Resource): real
  {
    Need(cfg, stock, k) as real + cfg.backlogWeight * CountPending(b, Name(k)) as real
  }

  /** Advances each resource's smoothed need towards its raw score; nothing
      else in the manager changes. */
  function SmoothNeeds(m: Manager, cfg: Config, stock: Option<Inventory>, b: Board): (m': Manager)
    ensures m' == m.(ema := m'.ema)
    ensures forall k :: m'.ema.Get(k) == Lerp(Score(cfg, stock, b, k), m.ema.Get(k), cfg.emaSmoothing)
  {
    m.(ema := PerResource(
      Lerp(Score(cfg, stock, b, Wood), m.ema.wood, cfg.emaSmoothing),
      Lerp(Score(cfg, stock, b, Stone), m.ema.stone, cfg.emaSmoothing),
      Lerp(Score(cfg, stock, b, Water), m.ema.water, cfg.emaSmoothing)))
  }

  /** A smoothing factor of 0 (or below) forgets the past; 1 (or above) never moves. */
  lemma SmoothingExtremes(m: Manager, cfg: Config, stock: Option<Inventory>, b: Board)
    ensures cfg.emaSmoothing <= 0.0 ==> forall k :: SmoothNeeds(m, cfg, stock, b).ema.Get(k) == Score(cfg, stock, b, k)
    ensures cfg.emaSmoothing >= 1.0 ==> SmoothNeeds(m, cfg, stock, b) == m
  {
  }

  /** Divides the smoothed needs by their sum; a sum below 0.0001 is replaced
      by 1, so the weights are then the smoothed needs themselves. */
  function Normalize(e: PerResource<real>): (w: PerResource<real>)
    ensures e.wood + e.stone + e.water < 0.0001 ==> w == e
    ensures e.wood + e.stone + e.water >= 0.0001 ==>
              forall k :: w.Get(k) * (e.wood + e.stone + e.water) == e.Get(k)
  {
    var sum0 := e.wood + e.stone + e.water;
    var sum := if sum0 < 0.0001 then 1.0 else sum0;
    PerResource(e.wood / sum, e.stone / sum, e.water / sum)
  }

  /** Normalising keeps the order of the smoothed needs, so ranking by weight
      is ranking by smoothed need; with a large enough sum the weights add up
      to 1. */
  lemma NormalizeKeepsOrder(e: PerResource<real>, a: Resource, c: Resource)
    ensures e.Get(a) >= e.Get(c) <==> Normalize(e).Get(a) >= Normalize(e).Get(c)
    ensures e.wood + e.stone + e.water >= 0.0001 ==>
              Normalize(e).wood + Normalize(e).stone + Normalize(e).water == 1.0
  {
    var sum0 := e.wood + e.stone + e.water;
    var sum := if sum0 < 0.0001 then 1.0 else sum0;
    assert sum > 0.0;
    assert Normalize(e).Get(a) == e.Get(a) / sum;
    assert Normalize(e).Get(c) == e.Get(c) / sum;
    DivMonotone(e.Get(a), e.Get(c), sum);
  }

  lemma DivMonotone(x: real, y: real, s: real)
    requires s > 0.0
    ensures x >= y <==> x / s >= y / s
  {
    assert x == (x / s) * s && y == (y / s) * s;
    if x / s >= y / s {
      assert (x / s) * s >= (y / s) * s;
    }
  }

  // ---- Ranking ----

  predicate NonIncreasing(s: seq<Resource>, w: PerResource<real>)
  {
    forall i, j :: 0 <= i < j < |s| ==> w.Get(s[i]) >= w.Get(s[j])
  }

  /** Inserts k before the first element of lower weight. */
  function Insert(k: Resource, s: seq<Resource>, w: PerResource<real>): (r: seq<Resource>)
    requires NonIncreasing(s, w)
    ensures multiset(r) == multiset(s) + multiset{k}
    ensures NonIncreasing(r, w)
  {
    if |s| == 0 then [k]
    else if w.Get(k) >= w.Get(s[0]) then
      assert forall i :: 0 <= i < |s| ==> w.Get(k) >= w.Get(s[i]);
      [k] + s
    else
      var rest := Insert(k, s[1..], w);
      assert s == [s[0]] + s[1..];
      HeadDominates(s[0], k, s[1..], rest, w);
      [s[0]] + rest
  }

  /** Putting x in front of a reordering of t plus k keeps the order when x
      already dominated t and outweighs k. */
  lemma HeadDominates(x: Resource, k: Resource, t: seq<Resource>, rest: seq<Resource>, w: PerResource<real>)
    requires NonIncreasing([x] + t, w) && w.Get(k) < w.Get(x)
    requires multiset(rest) == multiset(t) + multiset{k} && NonIncreasing(rest, w)
    ensures NonIncreasing([x] + rest, w)
  {
    forall i | 0 <= i < |rest|
      ensures w.Get(x) >= w.Get(rest[i])
    {
      assert rest[i] in multiset(rest);
      assert ([x] + t)[0] == x;
      if rest[i] != k {
        assert rest[i] in multiset(t);
        var j :| 0 <= j < |t| && t[j] == rest[i];
        assert ([x] + t)[j + 1] == t[j];
      }
    }
    forall i, j | 0 <= i < j < |[x] + rest|
      ensures w.Get(([x] + rest)[i]) >= w.Get(([x] + rest)[j])
    {
      if i > 0 {
        assert ([x] + rest)[i] == rest[i - 1] && ([x] + rest)[j] == rest[j - 1];
      } else {
        assert ([x] + rest)[j] == rest[j - 1];
      }
    }
  }

  /** Orders resources by non-increasing weight. Equal weights may come in
      either order, as with the unstable sort of the original. */
  function SortByWeight(s: seq<Resource>, w: PerResource<real>): (r: seq<Resource>)
    ensures multiset(r) == multiset(s)
    ensures NonIncreasing(r, w)
  {
    if |s| == 0 then []
    else
      assert s == [s[0]] + s[1..];
      Insert(s[0], SortByWeight(s[1..], w), w)
  }

  /** The two kinds other than k, in enumeration order. */
  function Others(k: Resource): (r: seq<Resource>)
    ensures multiset([k] + r) == multiset(AllKinds)
  {
    match k
    case Wood => [Stone, Water]
    case Stone => [Wood, Water]
    case Water => [Wood, Stone]
  }

  /** The worker's sticky preference is still open. */
  predicate StickyActive(m: Manager, workerId: int)
  {
    workerId in m.sticky && m.tick <= m.sticky[workerId].untilTick
  }

  /** The order in which resources are tried for a worker: all three kinds by
      non-increasing weight, except that an open sticky preference goes first. */
  function RankResourcesForWorker(m: Manager, workerId: int, w: PerResource<real>): (order: seq<Resource>)
    ensures multiset(order) == multiset(AllKinds) && |order| == 3
    ensures StickyActive(m, workerId) ==> order[0] == m.sticky[workerId].res && NonIncreasing(order[1..], w)
    ensures !StickyActive(m, workerId) ==> NonIncreasing(order, w)
  {
    if StickyActive(m, workerId) then
      var s := m.sticky[workerId].res;
      var rest := SortByWeight(Others(s), w);
      assert ([s] + rest)[1..] == rest;
      assert multiset([s] + rest) == multiset{s} + multiset(rest) == multiset([s] + Others(s));
      [s] + rest
    else SortByWeight(AllKinds, w)
  }

  // ---- Quotas and claiming ----

  /** Resource k may receive a new claim: some amount is pending for it, and
      neither its per-frame claim limit nor its worker limit is reached. */
  predicate QuotaAllows(m: Manager, cfg: Config, b: Board, k: Resource)
  {
    if CountPending(b, Name(k)) <= 0 then false
    else if m.newClaims.Get(k) >= cfg.maxNewClaimsPerResourcePerTick then false
    else if m.active.Get(k) >= cfg.maxWorkersPerResource then false
    else true
  }

  /** Some resource may receive a new claim. */
  predicate SomeQuota(m: Manager, cfg: Config, b: Board)
  {
    QuotaAllows(m, cfg, b, Wood) || QuotaAllows(m, cfg, b, Stone) || QuotaAllows(m, cfg, b, Water)
  }

  /** The bookkeeping of a successful claim for k: one more active worker and
      one more claim this frame for k, and the worker sticks to k for the
      configured number of ticks. */
  function Granted(m: Manager, cfg: Config, k: Resource, workerId: int): (m': Manager)
    ensures m'.active.Get(k) == m.active.Get(k) + 1 && m'.newClaims.Get(k) == m.newClaims.Get(k) + 1
    ensures forall j :: j != k ==> m'.active.Get(j) == m.active.Get(j) && m'.newClaims.Get(j) == m.newClaims.Get(j)
    ensures m'.sticky == m.sticky[workerId := Sticky(k, m.tick + cfg.workerStickinessTicks)]
    ensures m'.ema == m.ema && m'.tick == m.tick
  {
    m.(active := m.active.Set(k, m.active.Get(k) + 1),
       newClaims := m.newClaims.Set(k, m.newClaims.Get(k) + 1),
       sticky := m.sticky[workerId := Sticky(k, m.tick + cfg.workerStickinessTicks)])
  }

  /** Jobs whose resource id is exactly k's key. */
  function ForResource(k: Resource): Option<Job -> bool>
  {
    Some((j: Job) => j.resourceId == Name(k))
  }

  /** No job before index n is Pending for the resource id r. */
  predicate NoEarlierPending(b: Board, n: nat, r: string)
  {
    forall i :: 0 <= i < n && i < |b.jobs| ==> !(b.jobs[i].status == Pending && b.jobs[i].resourceId == r)
  }

  /** The outcome of a claim attempt: the updated manager and board, the
      claimed job's index, and the resource the claim was counted under. */
  datatype Grant = Grant(manager: Manager, board: Board, job: Option<nat>, kind: Option<Resource>)
  {
    /** What a grant promises: the job is the board's first Pending job for the
        granted kind and is now Claimed, nothing else on the board changed, and
        the manager did the bookkeeping for that kind; no grant changes nothing. */
    predicate Honours(m: Manager, cfg: Config, b: Board, workerId: int)
    {
      && (job.None? <==> kind.None?)
      && (job.None? ==> manager == m && board == b)
      && (job.Some? ==>
            && job.value < |b.jobs|
            && b.jobs[job.value].status == Pending
            && b.jobs[job.value].resourceId == Name(kind.value)
            && NoEarlierPending(b, job.value, Name(kind.value))
            && board == b.(jobs := b.jobs[job.value := b.jobs[job.value].(status := Claimed)])
            && manager == Granted(m, cfg, kind.value, workerId))
    }
  }

  /** Tries the resources in order: skips those the quota refuses and claims
      the first job of the first resource that has one. */
  function TryInOrder(m: Manager, cfg: Config, b: Board, order: seq<Resource>, workerId: int): (g: Grant)
    ensures g.Honours(m, cfg, b, workerId)
    ensures g.job.None? <==> forall i :: 0 <= i < |order| ==> !QuotaAllows(m, cfg, b, order[i])
    ensures g.kind.Some? ==> g.kind.value in order && QuotaAllows(m, cfg, b, g.kind.value)
  {
    if |order| == 0 then Grant(m, b, None, None)
    else
      var k := order[0];
      if !QuotaAllows(m, cfg, b, k) then
        var g := TryInOrder(m, cfg, b, order[1..], workerId);
        assert forall i :: 0 < i < |order| ==> order[i] == order[1..][i - 1];
        g
      else
        var c := TryClaimJob(b, ForResource(k));
        if c.job.Some? then Grant(Granted(m, cfg, k, workerId), c.board, c.job, Some(k))
        else
          PositiveBacklogHasJob(b.jobs, Name(k));
          assert false;
          Grant(m, b, None, None)
  }

  /** k occurs in order, and the quota refuses every resource met before it. */
  predicate FirstAllowedIs(m: Manager, cfg: Config, b: Board, order: seq<Resource>, k: Resource)
  {
    |order| > 0 &&
    if order[0] == k then QuotaAllows(m, cfg, b, k)
    else !QuotaAllows(m, cfg, b, order[0]) && FirstAllowedIs(m, cfg, b, order[1..], k)
  }

  /** The granted resource is the first one in the order that the quota allows. */
  lemma {:induction false} TryInOrderFirstAllowed(m: Manager, cfg: Config, b: Board, order: seq<Resource>, workerId: int)
    ensures var g := TryInOrder(m, cfg, b, order, workerId);
      g.kind.Some? ==> FirstAllowedIs(m, cfg, b, order, g.kind.value)
  {
    if |order| > 0 && !QuotaAllows(m, cfg, b, order[0]) {
      TryInOrderFirstAllowed(m, cfg, b, order[1..], workerId);
    }
  }

  /** Every resource kind occurs in a ranking. */
  lemma RankingCoversAll(order: seq<Resource>, k: Resource)
    requires multiset(order) == multiset(AllKinds)
    ensures exists i :: 0 <= i < |order| && order[i] == k
  {
    assert k in multiset(AllKinds);
    assert k in multiset(order);
  }

  /** Trying every resource kind in some order grants a job whenever some
      resource passes its quota. */
  lemma GrantWhenSomeQuota(m: Manager, cfg: Config, b: Board, order: seq<Resource>, workerId: int)
    requires multiset(order) == multiset(AllKinds)
    ensures SomeQuota(m, cfg, b) ==> TryInOrder(m, cfg, b, order, workerId).job.Some?
  {
    if SomeQuota(m, cfg, b) {
      var k := if QuotaAllows(m, cfg, b, Wood) then Wood else if QuotaAllows(m, cfg, b, Stone) then Stone else Water;
      RankingCoversAll(order, k);
    }
  }

  /** Claiming in any order of the three kinds grants a job exactly when
      some resource passes its quota, grants the first allowed kind, and
      keeps the counters within their limits. */
  lemma ClaimInAnyRanking(m: Manager, cfg: Config, b: Board, order: seq<Resource>, workerId: int)
    requires multiset(order) == multiset(AllKinds)
    ensures var g := TryInOrder(m, cfg, b, order, workerId);
            && (g.job.Some? <==> SomeQuota(m, cfg, b))
            && (g.kind.Some? ==> FirstAllowedIs(m, cfg, b, order, g.kind.value))
            && (WithinQuota(m, cfg) ==> WithinQuota(g.manager, cfg))
  {
    var g := TryInOrder(m, cfg, b, order, workerId);
    TryInOrderFirstAllowed(m, cfg, b, order, workerId);
    GrantWhenSomeQuota(m, cfg, b, order, workerId);
    if WithinQuota(m, cfg) {
      GrantKeepsQuota(m, cfg, b, order, workerId);
    }
    if g.kind.Some? {
      assert QuotaAllows(m, cfg, b, g.kind.value);
      match g.kind.value
      case Wood =>
      case Stone =>
      case Water =>
    }
  }

  /** Ranks the resources for a worker and claims in that order: a job is
      granted exactly when some resource passes its quota, and the quota
      limits are never exceeded. */
  function ClaimRanked(m: Manager, cfg: Config, b: Board, w: PerResource<real>, workerId: int): (g: Grant)
    ensures g.Honours(m, cfg, b, workerId)
    ensures g.job.Some? <==> SomeQuota(m, cfg, b)
    ensures g.kind.Some? ==> QuotaAllows(m, cfg, b, g.kind.value)
    ensures g.kind.Some? ==> FirstAllowedIs(m, cfg, b, RankResourcesForWorker(m, workerId, w), g.kind.value)
    ensures WithinQuota(m, cfg) ==> WithinQuota(g.manager, cfg)
  {
    var order := RankResourcesForWorker(m, workerId, w);
    ClaimInAnyRanking(m, cfg, b, order, workerId);
    TryInOrder(m, cfg, b, order, workerId)
  }

  /** Smoothing the needs leaves every quota decision as it was. */
  lemma SmoothingKeepsQuota(m: Manager, cfg: Config, stock: Option<Inventory>, b: Board)
    ensures forall k :: QuotaAllows(SmoothNeeds(m, cfg, stock, b), cfg, b, k) == QuotaAllows(m, cfg, b, k)
    ensures SomeQuota(SmoothNeeds(m, cfg, stock, b), cfg, b) == SomeQuota(m, cfg, b)
  {
  }

  /** The scheduler's answer to a worker's request: the manager, the board,
      the claimed job and the resource it was counted under. */
  datatype Reply = Reply(manager: Manager, board: Option<Board>, job: Option<nat>, kind: Option<Resource>)

  /** Answers a worker's request. Without a job board it answers nothing and
      changes nothing; otherwise it advances the smoothed needs, ranks the
      resources and claims in that order. A job is granted exactly when some
      resource passes its quota; the granted resource is the first in the
      ranking that passes, the granted job is the board's first Pending job
      for it and is now Claimed, that resource's counters grow by one and the
      worker sticks to it. */
  function TryClaimJobFor(m: Manager, cfg: Config, board: Option<Board>, stock: Option<Inventory>, workerId: int)
    : (r: Reply)
    ensures board.None? ==> r == Reply(m, None, None, None)
    ensures board.Some? ==> r.board.Some? && (r.job.Some? <==> SomeQuota(m, cfg, board.value))
    ensures board.Some? ==>
              Grant(r.manager, r.board.value, r.job, r.kind).Honours(SmoothNeeds(m, cfg, stock, board.value), cfg, board.value, workerId)
    ensures board.Some? && r.kind.Some? ==> QuotaAllows(m, cfg, board.value, r.kind.value)
    ensures board.Some? && r.kind.Some? ==>
              var wm := SmoothNeeds(m, cfg, stock, board.value);
              FirstAllowedIs(wm, cfg, board.value, RankResourcesForWorker(wm, workerId, Normalize(wm.ema)), r.kind.value)
  {
    if board.None? then Reply(m, None, None, None)
    else
      var wm := SmoothNeeds(m, cfg, stock, board.value);
      var g := ClaimRanked(wm, cfg, board.value, Normalize(wm.ema), workerId);
      SmoothingKeepsQuota(m, cfg, stock, board.value);
      Reply(g.manager, Some(g.board), g.job, g.kind)
  }

  /** In a non-increasing order, the first resource the quota allows weighs
      at least as much as every other allowed resource. */
  lemma {:induction false} FirstAllowedHeaviest(m: Manager, cfg: Config, b: Board, order: seq<Resource>,
                                               w: PerResource<real>, k: Resource)
    requires NonIncreasing(order, w) && FirstAllowedIs(m, cfg, b, order, k)
    ensures forall i :: 0 <= i < |order| && QuotaAllows(m, cfg, b, order[i]) ==> w.Get(k) >= w.Get(order[i])
  {
    if order[0] != k {
      var tail := order[1..];
      assert NonIncreasing(tail, w) by {
        forall i, j | 0 <= i < j < |tail| ensures w.Get(tail[i]) >= w.Get(tail[j]) {
          assert tail[i] == order[i + 1] && tail[j] == order[j + 1];
        }
      }
      FirstAllowedHeaviest(m, cfg, b, tail, w, k);
      forall i | 0 <= i < |order| && QuotaAllows(m, cfg, b, order[i]) ensures w.Get(k) >= w.Get(order[i]) {
        assert i > 0 && order[i] == tail[i - 1];
      }
    }
  }

  /** A worker whose preference window is open gets its preferred resource
      whenever the quota allows it. */
  lemma StickyKindWins(m: Manager, cfg: Config, b: Board, stock: Option<Inventory>, workerId: int)
    requires StickyActive(m, workerId) && QuotaAllows(m, cfg, b, m.sticky[workerId].res)
    ensures TryClaimJobFor(m, cfg, Some(b), stock, workerId).kind == Some(m.sticky[workerId].res)
  {
    var wm := SmoothNeeds(m, cfg, stock, b);
    var r := TryClaimJobFor(m, cfg, Some(b), stock, workerId);
    var order := RankResourcesForWorker(wm, workerId, Normalize(wm.ema));
    var s := m.sticky[workerId].res;
    assert wm.sticky == m.sticky && wm.tick == m.tick && wm.active == m.active && wm.newClaims == m.newClaims;
    assert order[0] == s && QuotaAllows(wm, cfg, b, s);
    assert SomeQuota(m, cfg, b) by {
      match s
      case Wood =>
      case Stone =>
      case Water =>
    }
    assert FirstAllowedIs(wm, cfg, b, order, r.kind.value);
  }

  /** Without an open preference window, the granted resource has the largest
      weight among the resources the quota allows. */
  lemma GrantedKindHeaviest(m: Manager, cfg: Config, b: Board, w: PerResource<real>, workerId: int, k: Resource)
    requires !StickyActive(m, workerId) && QuotaAllows(m, cfg, b, k)
    ensures var g := ClaimRanked(m, cfg, b, w, workerId);
            g.kind.Some? && w.Get(g.kind.value) >= w.Get(k)
  {
    var g := ClaimRanked(m, cfg, b, w, workerId);
    var order := RankResourcesForWorker(m, workerId, w);
    FirstAllowedHeaviest(m, cfg, b, order, w, g.kind.value);
    RankingCoversAll(order, k);
  }

  // ---- Properties ----

  /** The counters stay within the configured limits (a negative limit acts as 0). */
  predicate WithinQuota(m: Manager, cfg: Config)
  {
    KindWithinQuota(m, cfg, Wood) && KindWithinQuota(m, cfg, Stone) && KindWithinQuota(m, cfg, Water)
  }

  predicate KindWithinQuota(m: Manager, cfg: Config, k: Resource)
  {
    && 0 <= m.newClaims.Get(k) <= Max(0, cfg.maxNewClaimsPerResourcePerTick)
    && 0 <= m.active.Get(k) <= Max(0, cfg.maxWorkersPerResource)
  }

  lemma InitialWithinQuota(cfg: Config)
    ensures WithinQuota(InitialManager, cfg)
  {
  }

  /** A grant only happens below both limits, so it keeps the counters within them. */
  lemma GrantKeepsQuota(m: Manager, cfg: Config, b: Board, order: seq<Resource>, workerId: int)
    requires WithinQuota(m, cfg)
    ensures WithinQuota(TryInOrder(m, cfg, b, order, workerId).manager, cfg)
  {
    var g := TryInOrder(m, cfg, b, order, workerId);
    if g.job.Some? {
      assert QuotaAllows(m, cfg, b, g.kind.value);
    }
  }

  /** A worker's request never pushes a counter past its limit. */
  lemma QuotaPreserved(m: Manager, cfg: Config, board: Option<Board>, stock: Option<Inventory>, workerId: int)
    requires WithinQuota(m, cfg)
    ensures WithinQuota(TryClaimJobFor(m, cfg, board, stock, workerId).manager, cfg)
  {
    if board.Some? {
      var wm := SmoothNeeds(m, cfg, stock, board.value);
      assert wm.active == m.active && wm.newClaims == m.newClaims;
      assert WithinQuota(wm, cfg);
    }
  }

  /** Releases and the frame reset keep the counters within the limits. */
  lemma ReleaseAndResetKeepQuota(m: Manager, cfg: Config, resId: Option<string>)
    requires WithinQuota(m, cfg)
    ensures WithinQuota(NotifyRelease(m, resId), cfg)
    ensures WithinQuota(LateUpdate(m), cfg)
  {
  }
}

=== FILE: wrappers.dfy ===
/** Optional values: the model's stand-in for a C# reference that may be null. */
module Wrappers {

  datatype Option<+T> = None | Some(value: T)
}
